=== FILE: README.md ===
# SmartPost in Dafny

A verified model of the decision logic of SmartPost, a LinkedIn publishing
assistant built on Next.js, Mongoose and Gemini. Each day the scheduled run
(the `GET` handler of `app/api/cron/generate-post/route.js`) does the
following:

- It works out the day's occasion from a fixed month-day table, falling back
  to the long date.
- It picks the accounts whose schedule is enabled. A manual trigger picks
  only the session's account, and only if it is enabled.
- For each account in turn, it asks Gemini for a caption and an image prompt
  (`lib/gemini.js`), with fixed fallbacks when the call fails.
- It stores a `generated` Post, tries to publish it to LinkedIn as a
  text-only `ugcPosts` share, and moves the post to `posted` or `failed`.
- It saves the post and adds one result line per account. A failure while
  serving one account becomes that account's line, and the run goes on.

The model also covers the remaining handlers:

- the OAuth start (`linkedin/auth`), which builds the authorization URL
- the OAuth callback (`linkedin/callback`), which upserts the account by
  LinkedIn id, records the token expiry and sets a 30-day session cookie
- the connection status (`linkedin/status`)
- the schedule update (`schedule`)
- today's posts (`posts/today`): a half-open local-day window, newest first,
  with projected fields
- manual publishing (`linkedin/post`), with its image-dependent share shape
- the `User` and `Post` records (`models/`), with their enums, defaults and
  required fields

Every call to the outside world is an input of the model:

- Gemini's reply or error: `Gemini.Reply`
- LinkedIn's answer: `LinkedinPost.Publish`, `LinkedinCallback.TokenGrant` and
  `LinkedinCallback.UserInfo`
- a failing store operation: an `Option<string>` fault
- the clock: `Millis` values and the local `Occasion.LocalDate`
- the time-of-day rendering: a function parameter

The requests the handlers send are returned as values (`PublishRequest`,
`TokenRequest`). The Mongo collections are `Store.Database`, a class with a
`users` sequence and a `posts` sequence. A record's id is its position in its
collection; the id's string form is its decimal rendering.

Modules:

| file | module | models |
|---|---|---|
| `wrappers.dfy` | `Wrappers` | `Option`, `Result` |
| `decimal.dfy` | `Decimal` | decimal rendering of numbers and its parse |
| `document.dfy` | `Document` | ids, their string form and the ObjectId cast |
| `env.dfy` | `Env` | environment variables as a template literal prints them |
| `uri_component.dfy` | `UriComponent` | `encodeURIComponent` and `decodeURIComponent` |
| `query_string.dfy` | `QueryString` | `a=b&c=d` rendering and reading |
| `post_model.dfy` | `PostModel` | `models/Post.js` |
| `user_model.dfy` | `UserModel` | `models/User.js` |
| `store.dfy` | `Store` | session lookup, upsert, schedule write, the `Database` class |
| `occasion.dfy` | `Occasion` | `getTodayOccasion` |
| `gemini.dfy` | `Gemini` | `lib/gemini.js` |
| `linkedin_post.dfy` | `LinkedinPost` | `app/api/linkedin/post/route.js` and the share payload |
| `linkedin_auth.dfy` | `LinkedinAuth` | `app/api/linkedin/auth/route.js` |
| `linkedin_callback.dfy` | `LinkedinCallback` | `app/api/linkedin/callback/route.js` |
| `linkedin_status.dfy` | `LinkedinStatus` | `app/api/linkedin/status/route.js` |
| `schedule_route.dfy` | `ScheduleRoute` | `app/api/schedule/route.js` |
| `posts_today.dfy` | `PostsToday` | `app/api/posts/today/route.js` |
| `generate_post.dfy` | `GeneratePost` | the `GET` handler of `app/api/cron/generate-post/route.js` |

Three behaviours of the code are easy to misread. The model keeps each of
them as the code has it:

- **A post can stay `generated`.** A post is created as `generated` and is
  meant to move on to `posted` or `failed` once LinkedIn answers. If the
  final `save()` fails, the stored post stays `generated`, and its
  account's result line is an error. `GeneratePost.UserStep` states this
  case.
- **`posted` and `failed` only record what LinkedIn returned.** The
  handler stores LinkedIn's post id on a `posted` post and the error
  message on a `failed` one, as returned, and never checks that either is
  non-empty. `PostModel.StatusConsistent` therefore requires the id or the
  error to be present, not non-empty.
- **Today's posts need no session.** Without a session cookie, or for an
  unknown account, the handler answers 200 with an empty list rather than
  401 or 404.

## Model

| member | source | states |
|---|---|---|
| Decimal.ParseDecOfDec | app/api/cron/generate-post/route.js:27 | reading back the decimal rendering of a month or day number gives the number |
| Decimal.DecInjective | app/api/cron/generate-post/route.js:27 | distinct numbers render differently |
| Decimal.DecLengthBound | app/api/cron/generate-post/route.js:30-35 | a number below 10^k renders in at most k digits |
| Document.CastId | app/api/linkedin/status/route.js:26 | an id string casts exactly when it is a non-empty run of digits; otherwise the cast error naming the string and the User model |
| Document.CastIdString | app/api/linkedin/callback/route.js:100 | the string form of an id casts back to the same id |
| Env.Text | app/api/linkedin/auth/route.js:4-10 | a set variable is printed as its value, an unset one as "undefined" |
| UriComponent.Utf8RoundTrip | lib/gemini.js:82 | the UTF-8 bytes of a character are a well-formed, shortest-form sequence that decodes back to it |
| UriComponent.EncodeURIComponent | lib/gemini.js:82 | the encoding holds only unreserved characters and `%`, is never shorter than its input, and leaves an all-unreserved string unchanged |
| UriComponent.DecodeEncode | lib/gemini.js:82 | decoding the encoding of any string gives the string back |
| UriComponent.EncodeUnits | lib/gemini.js:82 | `encodeURIComponent` on UTF-16 code units: the output holds only unreserved characters and `%`, and its only failure is "URI malformed" |
| UriComponent.EncodeUnitsOfString | lib/gemini.js:82 | on the code units of a whole string the unit encoder never throws and equals the character encoder |
| UriComponent.LoneHighSurrogate | lib/gemini.js:82 | a high surrogate with nothing after it makes the encoding throw "URI malformed" |
| UriComponent.Utf16Plain | lib/gemini.js:82 | a string with no character above U+FFFF has one code unit per character, equal to the character |
| UriComponent.PairOfChar | lib/gemini.js:82 | the surrogate pair of a character above U+FFFF stands for that character again |
| QueryString.SplitJoin | app/api/linkedin/auth/route.js:8-10 | splitting at `&` undoes joining with `&` when no part holds `&` |
| QueryString.ParseRender | app/api/linkedin/auth/route.js:8-10 | reading a rendered query gives back its parameters, in order, when names hold no `&` or `=` and values no `&` |
| LinkedinAuth.ScopeEncoding | app/api/linkedin/auth/route.js:6-10 | the scope is sent as `openid%20profile%20email%20w_member_social` |
| LinkedinAuth.AuthorizationUrlParses | app/api/linkedin/auth/route.js:8-12 | the URL is the authorization endpoint, `?`, then `response_type=code`, `client_id` verbatim, `redirect_uri` encoded and `scope` encoded, in that order; reading the query gives these four back, and decoding `redirect_uri` gives the configured URI |
| Gemini.GeneratePostContent | lib/gemini.js:5-42 | on success the model's text unchanged, on failure the fallback caption, which never throws; the caption is empty only if the model answered with empty text |
| Gemini.FallbackCaptionShape | lib/gemini.js:30-41 | the fallback caption starts with "🎉 Happy " + occasion + "!" and ends with the fixed hashtag line, whatever the error |
| Gemini.GenerateImagePrompt | lib/gemini.js:44-74 | on success the model's text unchanged; on failure one fixed prompt, the same for every occasion and error |
| Gemini.Prefix50 | lib/gemini.js:82 | `substring(0, 50)` is the first min(50, length) characters |
| Gemini.GenerateImage | lib/gemini.js:78-86 | with the prompt cut at 50 whole characters, the URL starts with the placeholder base and its `text` parameter holds no `&` or `#`; it takes no model reply |
| Gemini.GenerateImageCarriesPrompt | lib/gemini.js:82-83 | decoding the `text` parameter gives back the first 50 characters of the prompt |
| Gemini.GenerateImageAsWritten | lib/gemini.js:78-86 | the function as written, cutting 50 UTF-16 code units: on success the URL starts with the placeholder base; a failure is the URIError "URI malformed" |
| Gemini.AsWrittenAgrees | lib/gemini.js:82 | where the cut cannot split a character (at most 50 code units, or no character above U+FFFF), the code as written gives exactly the URL of `GenerateImage` |
| Gemini.CutSplitsPair | lib/gemini.js:82 | 49 characters below U+10000 followed by one above U+FFFF make the code as written throw a URIError |
| Gemini.PaletteAfter49Letters | lib/gemini.js:82 | on 49 letters and U+1F3A8 the code as written throws, while the whole-character cut gives a URL whose `text` decodes to the whole prompt |
| PostModel.StatusName | models/Post.js:20-24 | the stored status is one of "generated", "posted", "failed" |
| PostModel.StatusNameInjective | models/Post.js:20-24 | the three statuses have distinct stored names |
| PostModel.NewPost | models/Post.js:20-31 | a created post is `generated` with `createdAt` the creation time and no LinkedIn id, posted time or error; the given fields are stored as given |
| PostModel.Validate | models/Post.js:9-16 | a post validates exactly when its occasion and caption are non-empty |
| UserModel.NewUser | models/User.js:20-48 | a new account gets schedule 09:00 UTC enabled, the free plan with one post a day, and `createdAt` the creation time |
| Store.Session | app/api/linkedin/status/route.js:16-24 | a missing or empty cookie is no session |
| Store.SessionUser | app/api/linkedin/status/route.js:16-32 | `findById` on the session cookie: no session exactly when the cookie is absent or empty; the cast runs before the query, so a cookie that is not an id fails with the cast error whatever the store would do; a cast id fails with the thrown query error when there is one; otherwise the account is found exactly when the id is in range, and is unknown when it is not |
| Store.SessionOfIdString | app/api/linkedin/callback/route.js:100 | the cookie set for an account finds that account |
| Store.FindByLinkedinId | app/api/linkedin/callback/route.js:79-80 | the query on `linkedinId` finds an account with that id, or reports that none has it |
| Store.Upserted | app/api/linkedin/callback/route.js:79-93 | afterwards exactly one account has the LinkedIn id and the ids stay unique; that account has the new token, refresh token, expiry and profile; an existing account keeps its schedule, plan and creation time; a new one gets the defaults; no other account changes |
| Store.WithSchedule | app/api/schedule/route.js:36-42 | only the schedule of that one account changes, and it becomes exactly the given value |
| Store.Database.CreatePost | app/api/cron/generate-post/route.js:119-127 | an invalid post is refused with its validation error, a store fault is reported, otherwise the post is appended at its fresh id |
| Store.Database.SavePost | app/api/cron/generate-post/route.js:187 | a save replaces the post at its id, or leaves the store as it was on a fault |
| Store.Database.UpsertByLinkedinId | app/api/linkedin/callback/route.js:79-93 | the users collection becomes `Upserted(...)`, or stays as it was on a fault |
| Store.Database.SaveSchedule | app/api/schedule/route.js:36-42 | the users collection becomes `WithSchedule(...)`, or stays as it was on a fault |
| Occasion.LongDate | app/api/cron/generate-post/route.js:30-35 | the en-US long date rendering holds a comma |
| Occasion.TodayOccasion | app/api/cron/generate-post/route.js:10-37 | the occasion is never empty |
| Occasion.KeyInjective | app/api/cron/generate-post/route.js:27 | the unpadded "month-day" key tells any two dates apart |
| Occasion.OnTable | app/api/cron/generate-post/route.js:15-29 | on each of the nine table dates the occasion is that date's label |
| Occasion.OffTable | app/api/cron/generate-post/route.js:27-36 | on every other date the key is not in the table and the occasion is the long date |
| Occasion.TodayOccasionIsCalendar | app/api/cron/generate-post/route.js:10-37 | the occasion is the calendar's label for the nine dates, the long date otherwise |
| Occasion.LabelHasNoComma | app/api/cron/generate-post/route.js:15-25 | no table label holds a comma |
| Occasion.OffTableIsNoLabel | app/api/cron/generate-post/route.js:28-36 | off the nine dates the occasion is never a table label |
| Occasion.OccasionLength | app/api/cron/generate-post/route.js:28-36 | for four-digit years the occasion is at most 50 characters long |
| LinkedinPost.UgcPayload | app/api/linkedin/post/route.js:18-40 | author is the person URN of the account and the commentary is the caption; it is published and public; it is an IMAGE share with the single READY media item exactly when `imageUrl` is a non-empty string, otherwise a NONE share with no media |
| LinkedinPost.HandlePost | app/api/linkedin/post/route.js:6-64 | steps in the handler's order: parse, connect, cast the id, query. A share is sent exactly when the body parses, the store connects, the id casts, the query answers and the id names an existing account, with that account's token and the payload above. A parse or connection error gives 500 with its message; an id that does not cast gives 500 with the cast error whatever the query would do; a thrown query gives 500 with its message. An unknown or missing id gives 404 and sends nothing. The answer is success exactly when a share was sent and published, carrying LinkedIn's post id; a rejected share gives 500 with the error's own message; the status is 200 exactly when a share was sent and published |
| LinkedinStatus.Status | app/api/linkedin/status/route.js:6-56 | no session or an unknown id is "not connected"; a found account is "connected" with its profile's name, email and picture and its stored schedule; an error answers 500; the status is 500 exactly on a connection or query error |
| ScheduleRoute.UpdateSchedule | app/api/schedule/route.js:6-59 | guards in the handler's order: a bad body or connection gives 500, no session 401, an unknown id 404, a failed save 500; otherwise the schedule is stored verbatim and echoed; posts never change, and users change only on success; the status is 401 exactly when the body parses, the store connects and there is no session; the error text is "Not authenticated" exactly on 401, "User not found" exactly for an unknown account, "Failed to update schedule" exactly on a parse, connection, lookup or save error, and absent exactly when the schedule is saved |
| ScheduleRoute.ScheduleRoundTrip | app/api/schedule/route.js:36-51 | after a schedule update, the status query answers "connected" with exactly the schedule set and the unchanged profile |
| PostsToday.Filter | app/api/posts/today/route.js:43-48 | keeps exactly the account's posts in the half-open window, each as often as it is stored |
| PostsToday.InsertNewest | app/api/posts/today/route.js:49 | inserting into a newest-first list keeps it newest first and adds exactly the one post |
| PostsToday.SortNewestFirst | app/api/posts/today/route.js:49 | the sort is newest first and a permutation of its input |
| PostsToday.TodayQuery | app/api/posts/today/route.js:43-49 | the result is newest first; every post in it is the account's and lies in the window; every such stored post is in it, with its multiplicity |
| PostsToday.Projections | app/api/posts/today/route.js:62-71 | one entry per post, in order, with its id, occasion, caption, image URL, status, rendered time and posted time |
| PostsToday.TodayPostsResponse | app/api/posts/today/route.js:7-79 | no session or an unknown account gives an empty list; an error gives 500; a found account gets the projection of its query; the status is 500 exactly on a connection or query error |
| LinkedinCallback.TokenExpiry | app/api/linkedin/callback/route.js:77 | the expiry lies `expires_in` seconds after now, in milliseconds |
| LinkedinCallback.Cookie | app/api/linkedin/callback/route.js:99-106 | the `userId` cookie holds the id string, is httpOnly, is secure exactly in production, is `lax`, and lasts 2592000 s on path "/" |
| LinkedinCallback.LoginFindsAccount | app/api/linkedin/callback/route.js:79-106 | after a login the cookie finds the account, which has the login's LinkedIn id, token, expiry and profile and is the only one with that LinkedIn id |
| LinkedinCallback.LoginTwiceKeepsOneAccount | app/api/linkedin/callback/route.js:79-93 | a second login with the same LinkedIn id updates the same account and adds none |
| LinkedinCallback.Callback | app/api/linkedin/callback/route.js:7-123 | no code redirects with `?error=no_code` and changes nothing; otherwise the code is exchanged; any failure redirects with `?error=auth_failed` and leaves users unchanged; success upserts, sets the cookie and redirects with `?connected=true`; the cookie set always finds its account |
| GeneratePost.OccasionImageUrlCarriesOccasion | app/api/cron/generate-post/route.js:112-114 | the stored image URL's `text` decodes to the occasion, and for today's occasion the URL is the one `generateImage` builds |
| GeneratePost.CronPayloadIsTextShare | app/api/cron/generate-post/route.js:136-150 | the run's share is the manual share without an image: well formed, text only |
| GeneratePost.EnabledIds | app/api/cron/generate-post/route.js:66 | exactly the enabled accounts, in collection order |
| GeneratePost.SelectUsers | app/api/cron/generate-post/route.js:53-67 | only enabled accounts are selected, in increasing id order; a cron trigger selects all of them unless the query throws; a manual trigger selects at most the cookie's account, still only if enabled; a cookie that is not an id fails with the cast error before the query runs, and a thrown query fails with its message |
| GeneratePost.Accounts | app/api/cron/generate-post/route.js:86 | the selected accounts, in selection order, with their records |
| GeneratePost.CreatedPost | app/api/cron/generate-post/route.js:100-127 | the post is created `generated`, with the occasion, the caption, the placeholder URL of the occasion, the image prompt, and `scheduledFor` and `createdAt` the run's clock reading, before any publish attempt |
| GeneratePost.AfterPublish | app/api/cron/generate-post/route.js:174-185 | a publish success makes the post `posted`, with the LinkedIn id and a posted time; a failure makes it `failed`, with the provider's message if non-empty, else the error's message; the image prompt, the schedule time and the creation time stay as they were, a posted post has no error, and a failed one has no LinkedIn id or posted time |
| GeneratePost.UserStep | app/api/cron/generate-post/route.js:95-213 | a post is stored and a share sent exactly when validation and the insert succeed; the stored post stays `generated` exactly when the save failed and is `posted` exactly when the save followed a publish success; the line reports the post exactly when the save succeeded, with `success` true exactly when the status is `posted` and when everything succeeded; when the save fails the stored post is exactly the created one |
| GeneratePost.SavedPostRecordsOutcome | app/api/cron/generate-post/route.js:174-187 | a saved post is the created post with the publish outcome recorded on it |
| GeneratePost.Fold | app/api/cron/generate-post/route.js:86-214 | one result line per account, and the store only grows |
| GeneratePost.FoldSnoc | app/api/cron/generate-post/route.js:86-214 | serving one more account runs its step on the store the others left |
| GeneratePost.FoldSteps | app/api/cron/generate-post/route.js:86-214 | each line is its own account's step, and the post it stores sits at a fresh id |
| GeneratePost.FoldKeeps | app/api/cron/generate-post/route.js:86-214 | a property every stored post has holds of every post the run adds |
| GeneratePost.FoldStoresEach | app/api/cron/generate-post/route.js:86-214 | when every step stores a post, the run adds one post per account |
| GeneratePost.RunUsers | app/api/cron/generate-post/route.js:83-214 | one line per selected account, and the existing posts are kept |
| GeneratePost.RunResultLines | app/api/cron/generate-post/route.js:193-213 | the lines follow the selection order and name their accounts; a line is a success exactly when everything succeeded for its account; a line that reports a post points at a post stored for that account, with that status |
| GeneratePost.RunPostsAdded | app/api/cron/generate-post/route.js:112-187 | every post added is numbered by its position, belongs to a selected account, carries the run's single occasion and its placeholder URL, and has a status consistent with its fields |
| GeneratePost.AllSucceedRun | app/api/cron/generate-post/route.js:86-214 | when everything succeeds for every account, every line is a success and each account gets exactly one new post, which is `posted` |
| GeneratePost.ChristmasOccasion | app/api/cron/generate-post/route.js:10-37 | on December 25 the occasion is "Christmas" |
| GeneratePost.ChristmasRun | app/api/cron/generate-post/route.js:24-214 | on December 25 the occasion is "Christmas", and if everything succeeds every line is a success and every new post is a `posted` "Christmas" post |
| GeneratePost.RejectedStep | app/api/cron/generate-post/route.js:177-199 | an account whose share is rejected with a message, everything else succeeding, gets its post saved as `failed` with the provider's message and no LinkedIn id, and a line that is not a success |
| GeneratePost.RejectedRun | app/api/cron/generate-post/route.js:177-199 | for one account whose share is rejected with a message, the single line is not a success and reports a `failed` post that carries the provider's message and no LinkedIn id |
| GeneratePost.ProcessUser | app/api/cron/generate-post/route.js:95-213 | serving one account on the store appends exactly the post of `UserStep` and returns its line and share |
| GeneratePost.ServeNext | app/api/cron/generate-post/route.js:95-213 | one pass of the loop extends the `Fold` over the accounts served so far by account `i`, keeping users unchanged |
| GeneratePost.ServeOne | app/api/cron/generate-post/route.js:95-213 | the `Fold` over the first `i+1` accounts is the one over the first `i` followed by account `i`'s step |
| GeneratePost.ServeAccounts | app/api/cron/generate-post/route.js:86-214 | the loop leaves the store, the lines and the shares that `Fold` specifies, and leaves users unchanged |
| GeneratePost.Run | app/api/cron/generate-post/route.js:39-246 | a connection error or a failing selection gives 500, stores nothing and sends nothing; no selected account gives "No users to process" and stores nothing; otherwise the response is today's occasion with the lines of `RunUsers`, and the store and shares are those of `RunUsers`; the status is 500 exactly on a connection error or a failing selection |

## Left out

- Logging (`console.log`/`console.error`), the Next.js request and response objects, and the headers of the HTTP calls are not modelled.
- The React dashboard, the disconnect route, the test routes, the Cloudinary wrapper and the node-cron script are not part of this model.
- The Gemini prompt texts, model choice and client are not modelled; a call is just its `Reply`.
- The `userinfo` request of the callback is not returned as a value, because it carries only the token that was just received.
- Only the outcome of the Mongo connection and queries is modelled, not the connection itself.
- Overlapping runs of the generation handler are not modelled. The handlers are sequential and no lock exists in the code.
- `postsPerDay` is stored but nothing enforces it, so the model enforces nothing either.
- The stored image prompt is kept on the post, but no share uses it. The run's share is always text-only, as in the code.
- Document.CastId: an ObjectId is modelled as a position, and its string form as the decimal rendering. Leading zeros are accepted by the cast, unlike the 24-hex-digit ObjectId.
- Gemini.Prefix50: `substring` counts UTF-16 code units, `Prefix50` counts characters, so the two differ on characters above U+FFFF. `Gemini.GenerateImageAsWritten` models the code-unit cut.
- Gemini.GenerateImage: it cuts at whole characters and cannot fail, while the code as written throws a URIError on a prompt whose 50th code unit is the first half of a surrogate pair, such as 49 letters followed by U+1F3A8 (see Findings). Nothing in the repository calls `generateImage`.
- UriComponent.EncodeURIComponent: the URIError that JavaScript throws on a lone surrogate cannot arise in this character-based encoder, because Dafny characters are Unicode scalar values. `UriComponent.EncodeUnits` models the encoding over code units, where it does arise.
- LinkedinAuth.AuthorizationUrlParses: assumes the client id holds no `&`. With one, the code's URL would read back as more than four parameters.
- Occasion.OccasionLength: bounds the occasion only for years below 10000.
- LinkedinCallback.TokenExpiry: a missing or non-numeric `expires_in` (an invalid `Date`) is not modelled; the expiry is an integer.
- The callback's token reply always carries an access token, so a missing one is not modelled. The code does not check for one either.
- The casting of request bodies by Mongoose and the `undefined` fields of a request body are not modelled. The schedule is stored as given, and the post body's `userId` is optional.
- The run's `scheduledFor` and `createdAt` are the same clock reading in the model. The code reads the clock once for each.
- GeneratePost.EnabledIds: `User.find` without `.sort()` promises no order. The model serves accounts in increasing id order, which fixes the order of the result lines and of the new posts' ids; the code may see another order.
- Ties in the newest-first sort are in insertion order in the model. MongoDB does not guarantee their order.
- The clock and time zone are inputs. The start and end of today's window, the local calendar date (with its weekday) and the time-of-day rendering are given, not derived.

## Findings

| source | as written | input that shows it | evidently intended | confidence | as-written member | corrected member |
|---|---|---|---|---|---|---|
| lib/gemini.js:82 | `encodeURIComponent(prompt.substring(0, 50))` cuts the prompt at 50 UTF-16 code units. When that cut separates a surrogate pair, the high surrogate is left alone, `encodeURIComponent` throws a URIError, and `generateImage` rejects. | 49 letters followed by U+1F3A8 (51 code units) | a placeholder URL for every prompt, its `text` being the start of the prompt in whole characters | high for the throw (ECMAScript's Encode operation rejects a lone surrogate); not executed | Gemini.GenerateImageAsWritten, with Gemini.CutSplitsPair and Gemini.PaletteAfter49Letters | Gemini.GenerateImage, with Gemini.GenerateImageCarriesPrompt and Gemini.AsWrittenAgrees |

=== FILE: decimal.dfy ===
/** Decimal rendering of natural numbers, as JavaScript's `String(n)` and
    template literals produce it, and the parse that reads it back. */
module Decimal {

  predicate IsDigit(c: char) {
    '0' <= c <= '9'
  }

  predicate AllDigits(s: string) {
    forall i :: 0 <= i < |s| ==> IsDigit(s[i])
  }

  function DigitChar(d: nat): (c: char)
    requires d < 10
    ensures IsDigit(c)
  {
    ('0' as int + d) as char
  }

  function DigitValue(c: char): (d: nat)
    requires IsDigit(c)
    ensures d < 10
  {
    c as int - '0' as int
  }

  /** The shortest decimal rendering of `n`, without sign or leading zeros. */
  function Dec(n: nat): (r: string)
    ensures |r| >= 1 && AllDigits(r)
    ensures n < 10 <==> |r| == 1
    ensures |r| > 1 ==> r[0] != '0'
    decreases n
  {
    if n < 10 then [DigitChar(n)] else Dec(n / 10) + [DigitChar(n % 10)]
  }

  /** Reads a string of decimal digits back as a number. */
  function ParseDec(s: string): (n: nat)
    requires AllDigits(s)
    decreases |s|
  {
    if s == [] then 0 else ParseDec(s[..|s| - 1]) * 10 + DigitValue(s[|s| - 1])
  }

  lemma {:induction false} ParseDecOfDec(n: nat)
    ensures ParseDec(Dec(n)) == n
    decreases n
  {
    if n >= 10 {
      var s := Dec(n);
      assert s[..|s| - 1] == Dec(n / 10);
      ParseDecOfDec(n / 10);
      assert DigitValue(DigitChar(n % 10)) == n % 10;
    }
  }

  /** Distinct numbers have distinct renderings. */
  lemma DecInjective(a: nat, b: nat)
    ensures Dec(a) == Dec(b) ==> a == b
  {
    ParseDecOfDec(a);
    ParseDecOfDec(b);
  }

  /** A bound on the length of a rendering, used to bound rendered dates. */
  lemma {:induction false} DecLengthBound(n: nat, k: nat)
    requires 1 <= k && n < Pow10(k)
    ensures |Dec(n)| <= k
    decreases k
  {
    if n >= 10 {
      DecLengthBound(n / 10, k - 1);
    }
  }

  function Pow10(k: nat): (p: nat)
    ensures p >= 1
  {
    if k == 0 then 1 else 10 * Pow10(k - 1)
  }
}

=== FILE: document.dfy ===
/** Record identity as the store gives it. A record's ObjectId is modelled
    by its position in its collection, and the id's string form
    (`_id.toString()`, the session cookie value) by the decimal rendering of
    that position. Casting a string back to an id fails, as Mongoose's
    ObjectId cast does, on anything that is not such a rendering. */
module Document {
  import opened Wrappers
  import opened Decimal

  type Id = nat

  /** Milliseconds since the epoch (a JavaScript `Date`). */
  type Millis = int

  function IdString(id: Id): string {
    Dec(id)
  }

  /** The message of the error thrown when a string is not an id. Every
      query cast in this model is on the User collection, so the model
      named in the message is always `User`. */
  function CastErrorMessage(s: string): string {
    "Cast to ObjectId failed for value \"" + s + "\" (type string) at path \"_id\" for model \"User\""
  }

  /** The cast a query performs on an id given as a string. */
  function CastId(s: string): (r: Result<Id>)
    ensures r.Success? <==> s != "" && AllDigits(s)
    ensures r.Failure? ==> r.error == CastErrorMessage(s)
  {
    if s != "" && AllDigits(s) then Success(ParseDec(s)) else Failure(CastErrorMessage(s))
  }

  /** An id's string form casts back to the same id. */
  lemma CastIdString(id: Id)
    ensures CastId(IdString(id)) == Success(id)
  {
    ParseDecOfDec(id);
  }
}

=== FILE: env.dfy ===
/** Process environment values as a template literal interpolates them: an
    unset variable is `undefined` and renders as the text "undefined". */
module Env {
  import opened Wrappers

  function Text(v: Option<string>): (s: string)
    ensures v.Some? ==> s == v.value
    ensures v.None? ==> s == "undefined"
  {
    match v
    case Some(t) => t
    case None => "undefined"
  }
}

=== FILE: gemini.dfy ===
/** The text generator (lib/gemini.js). A call to the model is replaced by
    its outcome, a `Reply`: the model's text, or the message of the error it
    threw. Each generator returns the model text unchanged or, when the call
    failed, a fixed fallback; none of them throws. */
module Gemini {
  import opened Wrappers
  import opened UriComponent

  datatype Reply = Replied(text: string) | Failed(message: string)

  const Hashtags := "#MondayMotivation #Success #Growth #LinkedIn #Professional"

  /** "🎉 Happy " */
  const Greeting := "\U{1F389} Happy "

  const FallbackBody :=
    " \n\nWishing everyone a wonderful day filled with opportunities and success. Let's make today count!"
    + "\n\nWhat are you working on today? Share in the comments! \U{1F447}\n\n"

  function FallbackCaption(occasion: string): string {
    Greeting + occasion + "!" + FallbackBody + Hashtags
  }

  /** `generatePostContent(occasion)`: the model's text on success, the
      fallback caption on failure. The caption is empty only when the model
      itself answered with empty text. */
  function GeneratePostContent(occasion: string, reply: Reply): (caption: string)
    ensures reply.Replied? ==> caption == reply.text
    ensures reply.Failed? ==> caption == FallbackCaption(occasion)
    ensures caption == "" <==> reply == Replied("")
  {
    match reply
    case Replied(text) => text
    case Failed(_) => assert |FallbackCaption(occasion)| > |Hashtags|; FallbackCaption(occasion)
  }

  /** The fallback caption opens "🎉 Happy <occasion>!" and closes with the
      fixed hashtag line, whatever the error was. */
  lemma FallbackCaptionShape(occasion: string, message: string)
    ensures var caption := GeneratePostContent(occasion, Failed(message));
      && |caption| > |Greeting + occasion + "!"| + |Hashtags|
      && caption[..|Greeting + occasion + "!"|] == Greeting + occasion + "!"
      && caption[|caption| - |Hashtags|..] == Hashtags
  {
    var c := FallbackCaption(occasion);
    assert c == (Greeting + occasion + "!") + FallbackBody + Hashtags;
  }

  const FallbackImagePrompt :=
    "Professional celebration image with blue and gold tones, modern office setting, inspiring atmosphere"

  /** `generateImagePrompt(occasion)`. On success the model's text; on
      failure one fixed prompt, the same for every occasion and error. */
  function GenerateImagePrompt(occasion: string, reply: Reply): (prompt: string)
    ensures reply.Replied? ==> prompt == reply.text
    ensures reply.Failed? ==> prompt == FallbackImagePrompt
  {
    match reply
    case Replied(text) => text
    case Failed(_) => FallbackImagePrompt
  }

  const PlaceholderBase := "https://via.placeholder.com/800x600/4A90E2/FFFFFF?text="

  /** `prompt.substring(0, 50)`. */
  function Prefix50(s: string): (t: string)
    ensures |t| == (if |s| <= 50 then |s| else 50) && t == s[..|t|]
  {
    if |s| <= 50 then s else s[..50]
  }

  /** `generateImage(prompt)` with the prompt cut at 50 whole characters:
      a placeholder-service URL whose `text` parameter is the encoded start
      of the prompt. It takes no model reply. The parameter holds no `&` or
      `#`, so it cannot end the query early. `GenerateImageAsWritten` is the
      cut at 50 code units that the function performs. */
  function GenerateImage(prompt: string): (url: string)
    ensures |url| >= |PlaceholderBase| && url[..|PlaceholderBase|] == PlaceholderBase
    ensures forall i :: |PlaceholderBase| <= i < |url| ==> url[i] != '&' && url[i] != '#'
  {
    PlaceholderBase + EncodeURIComponent(Prefix50(prompt))
  }

  /** Decoding the `text` parameter of the URL gives back the first 50
      characters of the prompt (all of it when it is shorter). */
  lemma GenerateImageCarriesPrompt(prompt: string)
    ensures var url := GenerateImage(prompt);
      PercentDecode(url[|PlaceholderBase|..]) == Some(Prefix50(prompt))
  {
    var url := GenerateImage(prompt);
    assert url[|PlaceholderBase|..] == EncodeURIComponent(Prefix50(prompt));
    DecodeEncode(Prefix50(prompt));
  }

  /** `generateImage(prompt)` as written: `substring(0, 50)` cuts the
      prompt's UTF-16 code units, and `encodeURIComponent` throws on a
      surrogate the cut separated from its partner. */
  function GenerateImageAsWritten(prompt: string): (r: Result<string>)
    ensures r.Success? ==> |r.value| >= |PlaceholderBase| && r.value[..|PlaceholderBase|] == PlaceholderBase
    ensures r.Failure? ==> r.error == MalformedUri
  {
    var us := Utf16(prompt);
    Prepend(PlaceholderBase, EncodeUnits(if |us| <= 50 then us else us[..50]))
  }

  /** Wherever the cut at 50 code units does not split a character, the
      code as written gives the URL of `GenerateImage`: for prompts of at
      most 50 code units, and for prompts without characters above U+FFFF. */
  lemma AsWrittenAgrees(prompt: string)
    requires |Utf16(prompt)| <= 50 || forall i :: 0 <= i < |prompt| ==> prompt[i] as int < 0x1_0000
    ensures GenerateImageAsWritten(prompt) == Success(GenerateImage(prompt))
  {
    var us := Utf16(prompt);
    if |us| <= 50 {
      assert |prompt| <= 50;
      EncodeUnitsOfString(prompt);
    } else {
      Utf16Plain(prompt);
      var head := prompt[..50];
      Utf16Plain(head);
      Utf16Append(head, prompt[50..]);
      assert head + prompt[50..] == prompt;
      assert us[..50] == Utf16(head);
      EncodeUnitsOfString(head);
    }
  }

  /** A prompt of 49 characters below U+10000 followed by one above U+FFFF
      is 51 code units long; the cut keeps only the high surrogate of the
      last character, and the call rejects with a URIError. */
  lemma {:induction false} CutSplitsPair(w: string, c: char)
    requires |w| == 49 && forall i :: 0 <= i < |w| ==> w[i] as int < 0x1_0000
    requires c as int >= 0x1_0000
    ensures GenerateImageAsWritten(w + [c]) == Failure(MalformedUri)
  {
    Utf16Plain(w);
    Utf16Append(w, [c]);
    assert Utf16([c]) == Utf16Char(c) + Utf16([]);
    var us := Utf16(w + [c]);
    assert us[..50] == Utf16(w) + [Utf16Char(c)[0]];
    LoneHighSurrogate(Utf16(w), Utf16Char(c)[0]);
  }

  /** The prompt "aaa…a🎨" (49 letters and U+1F3A8): `generateImage` as
      written rejects it, while cutting at whole characters gives a URL
      whose `text` decodes to the whole prompt. */
  lemma PaletteAfter49Letters()
    ensures var prompt := seq(49, _ => 'a') + ['\U{1F3A8}'];
      && GenerateImageAsWritten(prompt) == Failure(MalformedUri)
      && PercentDecode(GenerateImage(prompt)[|PlaceholderBase|..]) == Some(prompt)
  {
    var prompt := seq(49, _ => 'a') + ['\U{1F3A8}'];
    CutSplitsPair(seq(49, _ => 'a'), '\U{1F3A8}');
    GenerateImageCarriesPrompt(prompt);
  }
}

=== FILE: generate_post.dfy ===
/** The scheduled run (the GET handler of app/api/cron/generate-post/route.js):
    pick the accounts to serve, work out today's occasion, and for each
    account in turn generate a caption and an image prompt, store a new
    post, try to publish it on LinkedIn, record the outcome on the post and
    add a line to the run's results. A failure while serving one account
    becomes that account's result line; the run goes on with the next.

    What the outside world does for an account (the two model replies, a
    failing insert, the LinkedIn outcome, a failing save and the clock
    readings) is an `Attempt`, given per account id by `world`. */
module GeneratePost {
  import opened Wrappers
  import opened Document
  import opened PostModel
  import opened UserModel
  import opened Store
  import opened UriComponent
  import opened Gemini
  import opened Occasion
  import opened LinkedinPost

  datatype Attempt = Attempt(
    captionReply: Reply,
    promptReply: Reply,
    createFault: Option<string>,
    publish: Publish,
    saveFault: Option<string>,
    createdAt: Millis,
    postedAt: Millis)

  /** One line of the run's `results`: a post that was stored and whose
      publish outcome was saved, or the message of the error that stopped
      the account's processing. */
  datatype RunResult =
    | Processed(userId: Id, userName: Option<string>, success: bool, postId: Id, status: PostStatus)
    | Errored(userId: Id, userName: Option<string>, error: string)
  {
    predicate Succeeded() {
      Processed? && success
    }
  }

  datatype RunResponse =
    | NoUsers
    | Completed(occasion: string, results: seq<RunResult>, timestamp: string)
    | CronFailed(details: string)

  function StatusCode(r: RunResponse): int {
    if r.CronFailed? then 500 else 200
  }

  /** `linkedinError.response?.data?.message || linkedinError.message`. */
  function ProviderErrorMessage(providerMessage: Option<string>, message: string): string {
    if Truthy(providerMessage) then providerMessage.value else message
  }

  /** The placeholder image URL the run stores: the whole occasion,
      percent-encoded, as the `text` parameter. */
  function OccasionImageUrl(occasion: string): string {
    PlaceholderBase + EncodeURIComponent(occasion)
  }

  /** The `text` parameter of the stored image URL decodes to the occasion,
      and for today's occasion (never over 50 characters) the URL is the one
      `generateImage` would build from it. */
  lemma OccasionImageUrlCarriesOccasion(d: LocalDate)
    requires d.year < 10000
    ensures var o := TodayOccasion(d);
      && PercentDecode(OccasionImageUrl(o)[|PlaceholderBase|..]) == Some(o)
      && OccasionImageUrl(o) == GenerateImage(o)
  {
    var o := TodayOccasion(d);
    OccasionLength(d);
    assert OccasionImageUrl(o)[|PlaceholderBase|..] == EncodeURIComponent(o);
    DecodeEncode(o);
  }

  /** The share the run publishes: text only, whatever image the post has. */
  function CronPayload(linkedinId: string, caption: string): UgcPost {
    UgcPost(PersonUrnPrefix + linkedinId, "PUBLISHED", caption, "NONE", None, "PUBLIC")
  }

  /** The run's share is the manual handler's share without an image, and
      so well formed. */
  lemma CronPayloadIsTextShare(linkedinId: string, caption: string)
    ensures CronPayload(linkedinId, caption) == UgcPayload(linkedinId, caption, None)
    ensures WellFormedShare(CronPayload(linkedinId, caption))
    ensures CronPayload(linkedinId, caption).media.None?
  {
    assert !Truthy(None);
  }

  predicate StrictlyIncreasing(ids: seq<Id>) {
    forall j, k :: 0 <= j < k < |ids| ==> ids[j] < ids[k]
  }

  /** `User.find({"schedule.enabled": true})`, in collection order. */
  function EnabledIds(users: seq<User>): (ids: seq<Id>)
    ensures forall k :: 0 <= k < |ids| ==> ids[k] < |users| && users[ids[k]].schedule.enabled
    ensures forall i :: 0 <= i < |users| && users[i].schedule.enabled ==> i in ids
    ensures StrictlyIncreasing(ids)
  {
    if users == [] then []
    else
      var front := users[..|users| - 1];
      EnabledIds(front) + (if users[|users| - 1].schedule.enabled then [|users| - 1] else [])
  }

  /** The accounts a run serves. With a session cookie (a manual trigger)
      only the cookie's account, and only if its schedule is enabled; a
      cookie that is not an id fails the cast before the query runs.
      Without one (the scheduler) every enabled account. `fault` is an error
      thrown by the query. */
  function SelectUsers(users: seq<User>, cookie: Option<string>, fault: Option<string>): (r: Result<seq<Id>>)
    ensures r.Success? ==>
      && StrictlyIncreasing(r.value)
      && forall k :: 0 <= k < |r.value| ==> r.value[k] < |users| && users[r.value[k]].schedule.enabled
    ensures Session(cookie).None? ==>
      r == if fault.Some? then Failure(fault.value) else Success(EnabledIds(users))
    ensures Session(cookie).Some? ==>
      var u := SessionUser(users, cookie, fault);
      && !u.NoSession?
      && (u.LookupFailed? ==> r == Failure(u.message))
      && (u.Unknown? ==> r == Success([]))
      && (u.Found? ==> r == Success(if users[u.id].schedule.enabled then [u.id] else []))
  {
    match Session(cookie)
    case None => if fault.Some? then Failure(fault.value) else Success(EnabledIds(users))
    case Some(s) =>
      match CastId(s)
      case Failure(e) => Failure(e)
      case Success(id) =>
        if fault.Some? then Failure(fault.value)
        else Success(if id < |users| && users[id].schedule.enabled then [id] else [])
  }

  /** An account as `User.find` returns it: its id and its document. */
  datatype Account = Account(id: Id, user: User)

  function Accounts(users: seq<User>, ids: seq<Id>): (accounts: seq<Account>)
    requires forall k :: 0 <= k < |ids| ==> ids[k] < |users|
    ensures |accounts| == |ids|
    ensures forall k :: 0 <= k < |ids| ==> accounts[k] == Account(ids[k], users[ids[k]])
  {
    seq(|ids|, k requires 0 <= k < |ids| => Account(ids[k], users[ids[k]]))
  }

  /** What serving one account does: the post left in the store (if it got
      there), the result line, and the share sent (if any). */
  datatype Step = Step(stored: Option<Post>, result: RunResult, sent: Option<PublishRequest>)

  /** The post as created: status `generated`, both times the creation
      time. */
  function CreatedPost(postId: Id, userId: Id, occasion: string, a: Attempt): (p: Post)
    ensures p.id == postId && p.userId == userId && p.occasion == occasion
    ensures p.caption == GeneratePostContent(occasion, a.captionReply)
    ensures p.imageUrl == Some(OccasionImageUrl(occasion))
    ensures p.status == Generated && StatusConsistent(p)
    ensures p.linkedinPostId.None? && p.postedAt.None? && p.error.None?
    ensures p.imagePrompt == Some(GenerateImagePrompt(occasion, a.promptReply))
    ensures p.scheduledFor == Some(a.createdAt) && p.createdAt == a.createdAt
  {
    NewPost(postId, userId, occasion, GeneratePostContent(occasion, a.captionReply),
            Some(OccasionImageUrl(occasion)), Some(GenerateImagePrompt(occasion, a.promptReply)),
            Some(a.createdAt), a.createdAt)
  }

  /** The post after the publish attempt, before it is saved. */
  function AfterPublish(p: Post, a: Attempt): (q: Post)
    requires p.linkedinPostId.None? && p.postedAt.None? && p.error.None?
    ensures q.id == p.id && q.userId == p.userId && q.occasion == p.occasion
    ensures q.caption == p.caption && q.imageUrl == p.imageUrl
    ensures q.imagePrompt == p.imagePrompt && q.scheduledFor == p.scheduledFor && q.createdAt == p.createdAt
    ensures StatusConsistent(q) && q.status != Generated
    ensures q.status == Posted <==> a.publish.Published?
    ensures a.publish.Published? ==>
      q.linkedinPostId == Some(a.publish.postId) && q.postedAt == Some(a.postedAt) && q.error.None?
    ensures a.publish.Rejected? ==>
      && q.error == Some(if Truthy(a.publish.providerMessage) then a.publish.providerMessage.value else a.publish.message)
      && q.linkedinPostId.None? && q.postedAt.None?
  {
    match a.publish
    case Published(linkedinId) => p.(status := Posted, linkedinPostId := Some(linkedinId), postedAt := Some(a.postedAt))
    case Rejected(pm, m) => p.(status := PostStatus.Failed, error := Some(ProviderErrorMessage(pm, m)))
  }

  /** Everything succeeds for this account: the caption is non-empty, the
      insert goes through, LinkedIn accepts the share and the save goes
      through. */
  predicate AttemptSucceeds(occasion: string, a: Attempt) {
    && occasion != ""
    && a.captionReply != Replied("")
    && a.createFault.None?
    && a.publish.Published?
    && a.saveFault.None?
  }

  /** Serving `account` with the next free post id `postId`. A post is
      stored and a share sent exactly when the post validates (the occasion
      and the caption are non-empty) and the insert goes through; the share
      is the text-only share of the caption, with the account's token. The
      stored post carries the occasion, the caption, the placeholder image
      URL and a status consistent with its fields: it stays `generated`
      exactly when the save failed, and is `posted` exactly when the save
      went through after LinkedIn accepted the share. The result line names
      the account; it reports the post exactly when the save went through,
      and counts as a success exactly when everything succeeded. */
  function UserStep(account: Account, postId: Id, occasion: string, a: Attempt): (s: Step)
    ensures s.result.userId == account.id && s.result.userName == account.user.profile.name
    ensures s.stored.Some? <==> occasion != "" && a.captionReply != Replied("") && a.createFault.None?
    ensures s.sent.Some? <==> s.stored.Some?
    ensures s.sent.Some? ==>
      s.sent.value == PublishRequest(UgcPostsEndpoint, account.user.accessToken,
                                     CronPayload(account.user.linkedinId, GeneratePostContent(occasion, a.captionReply)))
    ensures s.stored.Some? ==>
      var p := s.stored.value;
      && p.id == postId && p.userId == account.id && p.occasion == occasion
      && p.caption == GeneratePostContent(occasion, a.captionReply)
      && p.imageUrl == Some(OccasionImageUrl(occasion))
      && StatusConsistent(p)
      && (p.status == Generated <==> a.saveFault.Some?)
      && (p.status == Posted <==> a.saveFault.None? && a.publish.Published?)
    ensures s.stored.Some? && a.saveFault.Some? ==> s.stored.value == CreatedPost(postId, account.id, occasion, a)
    ensures s.result.Processed? <==> s.stored.Some? && a.saveFault.None?
    ensures s.result.Processed? ==>
      && s.stored.Some? && s.result.postId == postId && s.result.status == s.stored.value.status
      && (s.result.success <==> s.result.status == Posted)
    ensures s.result.Succeeded() <==> AttemptSucceeds(occasion, a)
  {
    var name := account.user.profile.name;
    var p := CreatedPost(postId, account.id, occasion, a);
    match Validate(p)
    case Some(e) => Step(None, Errored(account.id, name, e), None)
    case None =>
      if a.createFault.Some? then Step(None, Errored(account.id, name, a.createFault.value), None)
      else
        var request := PublishRequest(UgcPostsEndpoint, account.user.accessToken,
                                      CronPayload(account.user.linkedinId, p.caption));
        var q := AfterPublish(p, a);
        if a.saveFault.Some? then Step(Some(p), Errored(account.id, name, a.saveFault.value), Some(request))
        else Step(Some(q), Processed(account.id, name, q.status == Posted, postId, q.status), Some(request))
  }

  /** The posts collection after a step. */
  function Stored(posts: seq<Post>, s: Step): seq<Post> {
    if s.stored.Some? then posts + [s.stored.value] else posts
  }

  function SentBy(s: Step): seq<PublishRequest> {
    if s.sent.Some? then [s.sent.value] else []
  }

  datatype Outcome = Outcome(posts: seq<Post>, results: seq<RunResult>, sent: seq<PublishRequest>)

  /** Serving `accounts` in order, starting from `posts`, each with `step`
      given the next free post id: one result line per account, and a store
      that only grows. */
  function Fold(posts: seq<Post>, accounts: seq<Account>, step: (Id, Account) -> Step): (out: Outcome)
    ensures |out.results| == |accounts|
    ensures |out.posts| >= |posts| && out.posts[..|posts|] == posts
    decreases |accounts|
  {
    if accounts == [] then Outcome(posts, [], [])
    else
      var before := Fold(posts, accounts[..|accounts| - 1], step);
      var s := step(|before.posts|, accounts[|accounts| - 1]);
      Outcome(Stored(before.posts, s), before.results + [s.result], before.sent + SentBy(s))
  }

  /** Serving one more account runs its step on the store left by the
      others. */
  lemma FoldSnoc(posts: seq<Post>, accounts: seq<Account>, step: (Id, Account) -> Step, a: Account)
    ensures var before := Fold(posts, accounts, step);
      var s := step(|before.posts|, a);
      Fold(posts, accounts + [a], step)
        == Outcome(Stored(before.posts, s), before.results + [s.result], before.sent + SentBy(s))
  {
    assert (accounts + [a])[..|accounts|] == accounts;
  }

  /** The post ids the accounts are served with, in order: each is the size
      of the store when its account's turn comes. */
  function PostIds(posts: seq<Post>, accounts: seq<Account>, step: (Id, Account) -> Step): (pids: seq<Id>)
    ensures |pids| == |accounts|
    ensures forall k :: 0 <= k < |pids| ==> pids[k] >= |posts|
    decreases |accounts|
  {
    if accounts == [] then []
    else
      var front := accounts[..|accounts| - 1];
      PostIds(posts, front, step) + [|Fold(posts, front, step).posts|]
  }

  /** Each result line is the line of its account's step, and a post that
      step stores sits at the id it was given, which is a fresh one. */
  lemma {:induction false} FoldSteps(posts: seq<Post>, accounts: seq<Account>, step: (Id, Account) -> Step)
    ensures var out := Fold(posts, accounts, step);
      var pids := PostIds(posts, accounts, step);
      forall k :: 0 <= k < |accounts| ==>
        && out.results[k] == step(pids[k], accounts[k]).result
        && |posts| <= pids[k]
        && (step(pids[k], accounts[k]).stored.Some? ==>
              pids[k] < |out.posts| && out.posts[pids[k]] == step(pids[k], accounts[k]).stored.value)
    decreases |accounts|
  {
    if accounts != [] {
      var n := |accounts| - 1;
      var front := accounts[..n];
      FoldSteps(posts, front, step);
      var before := Fold(posts, front, step);
      var out := Fold(posts, accounts, step);
      var pids := PostIds(posts, accounts, step);
      var s := step(|before.posts|, accounts[n]);
      assert out.results == before.results + [s.result];
      assert pids == PostIds(posts, front, step) + [|before.posts|];
      assert out.posts == Stored(before.posts, s);
      forall k | 0 <= k < n
        ensures out.results[k] == before.results[k] && accounts[k] == front[k]
        ensures pids[k] == PostIds(posts, front, step)[k]
        ensures pids[k] < |before.posts| ==> out.posts[pids[k]] == before.posts[pids[k]]
      {
      }
    }
  }

  /** A property that every post a step may store has, given the id it was
      served with, holds of every post the fold adds at its position. */
  lemma {:induction false} FoldKeeps(posts: seq<Post>, accounts: seq<Account>, step: (Id, Account) -> Step,
                                     inv: (Id, Post) -> bool)
    requires forall pid: Id, k :: 0 <= k < |accounts| && step(pid, accounts[k]).stored.Some? ==>
      inv(pid, step(pid, accounts[k]).stored.value)
    ensures forall i :: |posts| <= i < |Fold(posts, accounts, step).posts| ==>
      inv(i, Fold(posts, accounts, step).posts[i])
    decreases |accounts|
  {
    if accounts != [] {
      var n := |accounts| - 1;
      var front := accounts[..n];
      forall pid: Id, k | 0 <= k < |front| && step(pid, front[k]).stored.Some?
        ensures inv(pid, step(pid, front[k]).stored.value)
      {
        assert front[k] == accounts[k];
      }
      FoldKeeps(posts, front, step, inv);
      var before := Fold(posts, front, step);
      var s := step(|before.posts|, accounts[n]);
      var out := Fold(posts, accounts, step);
      assert out.posts == Stored(before.posts, s);
      assert s.stored.Some? ==> inv(|before.posts|, s.stored.value);
      forall i | |posts| <= i < |out.posts|
        ensures inv(i, out.posts[i])
      {
        if i < |before.posts| {
          assert out.posts[i] == before.posts[i];
          assert inv(i, before.posts[i]);
        } else {
          assert out.posts[i] == s.stored.value;
        }
      }
    }
  }

  /** Serving an account in the run of `occasion`. */
  function StepOf(occasion: string, world: Id -> Attempt): (Id, Account) -> Step {
    (postId: Id, account: Account) => UserStep(account, postId, occasion, world(account.id))
  }

  /** Serving the accounts `ids` in order, starting from `posts`. */
  function RunUsers(users: seq<User>, posts: seq<Post>, occasion: string, ids: seq<Id>,
                    world: Id -> Attempt): (out: Outcome)
    requires forall k :: 0 <= k < |ids| ==> ids[k] < |users|
    ensures |out.results| == |ids|
    ensures |out.posts| >= |posts| && out.posts[..|posts|] == posts
  {
    Fold(posts, Accounts(users, ids), StepOf(occasion, world))
  }

  /** The result lines follow the accounts in order, each naming its
      account, and a line counts as a success exactly when everything
      succeeded for its account; a line that reports a post points at a post
      the run stored for that account, with the reported status. */
  lemma RunResultLines(users: seq<User>, posts: seq<Post>, occasion: string, ids: seq<Id>,
                       world: Id -> Attempt)
    requires forall k :: 0 <= k < |ids| ==> ids[k] < |users|
    ensures var out := RunUsers(users, posts, occasion, ids, world);
      forall k :: 0 <= k < |ids| ==>
        && out.results[k].userId == ids[k]
        && out.results[k].userName == users[ids[k]].profile.name
        && (out.results[k].Succeeded() <==> AttemptSucceeds(occasion, world(ids[k])))
        && (out.results[k].Processed? ==>
              var i := out.results[k].postId;
              && |posts| <= i < |out.posts|
              && out.posts[i].userId == ids[k]
              && out.posts[i].status == out.results[k].status
              && (out.results[k].success <==> out.results[k].status == Posted))
  {
    var accounts := Accounts(users, ids);
    var step := StepOf(occasion, world);
    var pids := PostIds(posts, accounts, step);
    FoldSteps(posts, accounts, step);
    forall k | 0 <= k < |ids|
      ensures step(pids[k], accounts[k]) == UserStep(accounts[k], pids[k], occasion, world(ids[k]))
    {
    }
  }

  /** Every post a run adds is numbered by its position, belongs to one of
      the accounts served, carries the occasion and the placeholder URL, and
      has a status consistent with its fields. */
  lemma RunPostsAdded(users: seq<User>, posts: seq<Post>, occasion: string, ids: seq<Id>,
                      world: Id -> Attempt)
    requires forall k :: 0 <= k < |ids| ==> ids[k] < |users|
    ensures var out := RunUsers(users, posts, occasion, ids, world);
      forall i :: |posts| <= i < |out.posts| ==>
        && out.posts[i].id == i
        && out.posts[i].userId in ids
        && out.posts[i].occasion == occasion
        && out.posts[i].imageUrl == Some(OccasionImageUrl(occasion))
        && StatusConsistent(out.posts[i])
  {
    var accounts := Accounts(users, ids);
    var step := StepOf(occasion, world);
    var inv := (i: Id, p: Post) =>
      && p.id == i && p.userId in ids && p.occasion == occasion
      && p.imageUrl == Some(OccasionImageUrl(occasion)) && StatusConsistent(p);
    forall pid: Id, k | 0 <= k < |accounts| && step(pid, accounts[k]).stored.Some?
      ensures inv(pid, step(pid, accounts[k]).stored.value)
    {
      var s := UserStep(accounts[k], pid, occasion, world(accounts[k].id));
      assert s.stored.value.userId == ids[k];
    }
    FoldKeeps(posts, accounts, step, inv);
  }

  /** A post that reached the store through a successful save is the
      created post with the publish outcome recorded on it. */
  lemma SavedPostRecordsOutcome(account: Account, postId: Id, occasion: string, a: Attempt)
    ensures var s := UserStep(account, postId, occasion, a);
      s.stored.Some? && a.saveFault.None? ==>
        s.stored.value == AfterPublish(CreatedPost(postId, account.id, occasion, a), a)
  {
  }

  /** When every step stores a post, the fold adds one post per account. */
  lemma {:induction false} FoldStoresEach(posts: seq<Post>, accounts: seq<Account>, step: (Id, Account) -> Step)
    requires forall pid: Id, k :: 0 <= k < |accounts| ==> step(pid, accounts[k]).stored.Some?
    ensures |Fold(posts, accounts, step).posts| == |posts| + |accounts|
    decreases |accounts|
  {
    if accounts != [] {
      var front := accounts[..|accounts| - 1];
      forall pid: Id, k | 0 <= k < |front|
        ensures step(pid, front[k]).stored.Some?
      {
        assert front[k] == accounts[k];
      }
      FoldStoresEach(posts, front, step);
    }
  }

  /** When generation and publishing succeed for every selected account,
      every result line is a success, each account gets exactly one new
      post, and every new post is `posted` with the run's occasion. */
  lemma AllSucceedRun(users: seq<User>, posts: seq<Post>, occasion: string, ids: seq<Id>, world: Id -> Attempt)
    requires forall k :: 0 <= k < |ids| ==> ids[k] < |users|
    requires forall k :: 0 <= k < |ids| ==> AttemptSucceeds(occasion, world(ids[k]))
    ensures var out := RunUsers(users, posts, occasion, ids, world);
      && |out.results| == |ids|
      && |out.posts| == |posts| + |ids|
      && (forall k :: 0 <= k < |ids| ==> out.results[k].Succeeded() && out.results[k].status == Posted)
      && (forall i :: |posts| <= i < |out.posts| ==>
            out.posts[i].occasion == occasion && out.posts[i].status == Posted)
  {
    RunResultLines(users, posts, occasion, ids, world);
    var accounts := Accounts(users, ids);
    var step := StepOf(occasion, world);
    forall pid: Id, k | 0 <= k < |accounts|
      ensures step(pid, accounts[k]).stored.Some?
      ensures step(pid, accounts[k]).stored.value.occasion == occasion
      ensures step(pid, accounts[k]).stored.value.status == Posted
    {
      assert accounts[k].id == ids[k];
    }
    FoldStoresEach(posts, accounts, step);
    FoldKeeps(posts, accounts, step, (i: Id, p: Post) => p.occasion == occasion && p.status == Posted);
  }

  /** On December 25 the occasion is "Christmas". */
  lemma ChristmasOccasion(d: LocalDate)
    requires d.month == 12 && d.day == 25
    ensures TodayOccasion(d) == "Christmas"
  {
    OnTable(d);
  }

  /** The Christmas run: on December 25 the occasion is "Christmas", and
      when everything succeeds for every selected account, every line is a
      success and every new post is a `posted` "Christmas" post. */
  lemma ChristmasRun(users: seq<User>, posts: seq<Post>, d: LocalDate, ids: seq<Id>, world: Id -> Attempt)
    requires forall k :: 0 <= k < |ids| ==> ids[k] < |users|
    requires d.month == 12 && d.day == 25
    requires forall k :: 0 <= k < |ids| ==> AttemptSucceeds(TodayOccasion(d), world(ids[k]))
    ensures TodayOccasion(d) == "Christmas"
    ensures var out := RunUsers(users, posts, TodayOccasion(d), ids, world);
      && |out.results| == |ids|
      && |out.posts| == |posts| + |ids|
      && (forall k :: 0 <= k < |ids| ==> out.results[k].Succeeded() && out.results[k].status == Posted)
      && (forall i :: |posts| <= i < |out.posts| ==>
            out.posts[i].occasion == TodayOccasion(d) && out.posts[i].status == Posted)
  {
    ChristmasOccasion(d);
    AllSucceedRun(users, posts, TodayOccasion(d), ids, world);
  }

  /** Serving an account whose share LinkedIn rejects with a message,
      everything else succeeding: the post is saved as `failed` with the
      provider's message and no LinkedIn id, and the line reports it as not
      a success. */
  lemma RejectedStep(account: Account, postId: Id, occasion: string, a: Attempt)
    requires occasion != "" && a.captionReply != Replied("") && a.createFault.None? && a.saveFault.None?
    requires a.publish.Rejected? && Truthy(a.publish.providerMessage)
    ensures var s := UserStep(account, postId, occasion, a);
      && s.result == Processed(account.id, account.user.profile.name, false, postId, PostStatus.Failed)
      && s.stored.Some?
      && s.stored.value.status == PostStatus.Failed
      && s.stored.value.error == a.publish.providerMessage
      && s.stored.value.linkedinPostId.None?
  {
    SavedPostRecordsOutcome(account, postId, occasion, a);
  }

  /** A run for one account whose share LinkedIn rejects with a message:
      one result line, not a success, reporting the new post as `failed`;
      the post carries the provider's message and no LinkedIn id. */
  lemma RejectedRun(users: seq<User>, posts: seq<Post>, occasion: string, id: Id, world: Id -> Attempt)
    requires id < |users| && occasion != ""
    requires world(id).captionReply != Replied("") && world(id).createFault.None? && world(id).saveFault.None?
    requires world(id).publish.Rejected? && Truthy(world(id).publish.providerMessage)
    ensures var out := RunUsers(users, posts, occasion, [id], world);
      && out.results == [Processed(id, users[id].profile.name, false, |posts|, PostStatus.Failed)]
      && |out.posts| == |posts| + 1
      && out.posts[|posts|].status == PostStatus.Failed
      && out.posts[|posts|].error == world(id).publish.providerMessage
      && out.posts[|posts|].linkedinPostId.None?
  {
    var account := Account(id, users[id]);
    var step := StepOf(occasion, world);
    assert Accounts(users, [id]) == [] + [account];
    FoldSnoc(posts, [], step, account);
    var st := step(|posts|, account);
    assert st == UserStep(account, |posts|, occasion, world(id));
    RejectedStep(account, |posts|, occasion, world(id));
  }

  /** Serving one account against the store: insert the post, publish,
      save the outcome. */
  method ProcessUser(db: Database, occasion: string, account: Account, a: Attempt)
    returns (result: RunResult, sent: Option<PublishRequest>)
    requires db.Valid()
    modifies db
    ensures db.Valid() && db.users == old(db.users)
    ensures var s := UserStep(account, |old(db.posts)|, occasion, a);
      && db.posts == Stored(old(db.posts), s)
      && result == s.result
      && sent == s.sent
  {
    var user := account.user;
    var name := user.profile.name;
    var caption := GeneratePostContent(occasion, a.captionReply);
    var imagePrompt := GenerateImagePrompt(occasion, a.promptReply);
    var imageUrl := OccasionImageUrl(occasion);
    var post := NewPost(|db.posts|, account.id, occasion, caption, Some(imageUrl), Some(imagePrompt),
                        Some(a.createdAt), a.createdAt);
    var created := db.CreatePost(post, a.createFault);
    if created.Failure? {
      return Errored(account.id, name, created.error), None;
    }
    var request := PublishRequest(UgcPostsEndpoint, user.accessToken, CronPayload(user.linkedinId, caption));
    sent := Some(request);
    match a.publish {
      case Published(linkedinId) =>
        post := post.(status := Posted, linkedinPostId := Some(linkedinId), postedAt := Some(a.postedAt));
      case Rejected(pm, m) =>
        post := post.(status := PostStatus.Failed, error := Some(ProviderErrorMessage(pm, m)));
    }
    var err := db.SavePost(post, a.saveFault);
    if err.Some? {
      return Errored(account.id, name, err.value), sent;
    }
    result := Processed(account.id, name, post.status == Posted, post.id, post.status);
  }

  /** Serving account `i` extends the fold over the first `i` accounts. */
  lemma ServeOne(posts: seq<Post>, accounts: seq<Account>, i: nat, occasion: string, world: Id -> Attempt,
                 before: Outcome)
    requires i < |accounts|
    requires Fold(posts, accounts[..i], StepOf(occasion, world)) == before
    ensures var s := UserStep(accounts[i], |before.posts|, occasion, world(accounts[i].id));
      Fold(posts, accounts[..i + 1], StepOf(occasion, world))
        == Outcome(Stored(before.posts, s), before.results + [s.result], before.sent + SentBy(s))
  {
    var step := StepOf(occasion, world);
    assert accounts[..i + 1] == accounts[..i] + [accounts[i]];
    FoldSnoc(posts, accounts[..i], step, accounts[i]);
    assert step(|before.posts|, accounts[i]) == UserStep(accounts[i], |before.posts|, occasion, world(accounts[i].id));
  }

  /** The body of the loop: serve account `i` and extend the lines and
      the shares sent. */
  method ServeNext(db: Database, ghost posts0: seq<Post>, accounts: seq<Account>, i: nat, occasion: string,
                   world: Id -> Attempt, results0: seq<RunResult>, sent0: seq<PublishRequest>)
    returns (results: seq<RunResult>, sent: seq<PublishRequest>)
    requires db.Valid() && i < |accounts|
    requires Fold(posts0, accounts[..i], StepOf(occasion, world)) == Outcome(db.posts, results0, sent0)
    modifies db
    ensures db.Valid() && db.users == old(db.users)
    ensures Fold(posts0, accounts[..i + 1], StepOf(occasion, world)) == Outcome(db.posts, results, sent)
  {
    var account := accounts[i];
    ghost var before := Outcome(db.posts, results0, sent0);
    ghost var s := UserStep(account, |db.posts|, occasion, world(account.id));
    var result, share := ProcessUser(db, occasion, account, world(account.id));
    results := results0 + [result];
    sent := sent0;
    if share.Some? {
      sent := sent + [share.value];
    }
    assert sent == before.sent + SentBy(s);
    ServeOne(posts0, accounts, i, occasion, world, before);
  }

  /** The loop over the selected accounts, in order. */
  method ServeAccounts(db: Database, accounts: seq<Account>, occasion: string, world: Id -> Attempt)
    returns (results: seq<RunResult>, sent: seq<PublishRequest>)
    requires db.Valid()
    modifies db
    ensures db.Valid() && db.users == old(db.users)
    ensures Fold(old(db.posts), accounts, StepOf(occasion, world)) == Outcome(db.posts, results, sent)
  {
    results, sent := [], [];
    ghost var posts0 := db.posts;
    var i := 0;
    while i < |accounts|
      invariant 0 <= i <= |accounts|
      invariant db.Valid() && db.users == old(db.users)
      invariant Fold(posts0, accounts[..i], StepOf(occasion, world)) == Outcome(db.posts, results, sent)
    {
      results, sent := ServeNext(db, posts0, accounts, i, occasion, world, results, sent);
      i := i + 1;
    }
    assert accounts[..i] == accounts;
  }

  /** The whole run. `connectFault` and `findFault` are errors from
      connecting to the store and from the account query (both end the run
      with 500); `today` is the local calendar date and `timestamp` the
      ISO rendering of the finishing time. Returns the response and the
      shares sent, in order. */
  method Run(db: Database, cookie: Option<string>, connectFault: Option<string>, findFault: Option<string>,
             today: LocalDate, world: Id -> Attempt, timestamp: string)
    returns (resp: RunResponse, sent: seq<PublishRequest>)
    requires db.Valid()
    modifies db
    ensures db.Valid() && db.users == old(db.users)
    ensures connectFault.Some? ==> resp == CronFailed(connectFault.value) && db.posts == old(db.posts) && sent == []
    ensures StatusCode(resp) == 500 <==> connectFault.Some? || SelectUsers(old(db.users), cookie, findFault).Failure?
    ensures connectFault.None? && SelectUsers(old(db.users), cookie, findFault).Failure? ==>
      && resp == CronFailed(SelectUsers(old(db.users), cookie, findFault).error)
      && db.posts == old(db.posts) && sent == []
    ensures connectFault.None? && SelectUsers(old(db.users), cookie, findFault) == Success([]) ==>
      resp == NoUsers && db.posts == old(db.posts) && sent == []
    ensures connectFault.None? && SelectUsers(old(db.users), cookie, findFault).Success? ==>
      var ids := SelectUsers(old(db.users), cookie, findFault).value;
      var out := RunUsers(old(db.users), old(db.posts), TodayOccasion(today), ids, world);
      ids != [] ==>
        && resp == Completed(TodayOccasion(today), out.results, timestamp)
        && db.posts == out.posts
        && sent == out.sent
  {
    sent := [];
    if connectFault.Some? {
      return CronFailed(connectFault.value), sent;
    }
    var selected := SelectUsers(db.users, cookie, findFault);
    assert selected == SelectUsers(old(db.users), cookie, findFault);
    if selected.Failure? {
      return CronFailed(selected.error), sent;
    }
    var ids := selected.value;
    if |ids| == 0 {
      return NoUsers, sent;
    }
    var occasion := TodayOccasion(today);
    var results;
    results, sent := ServeAccounts(db, Accounts(db.users, ids), occasion, world);
    resp := Completed(occasion, results, timestamp);
    assert StatusCode(resp) == 200;
  }
}

=== FILE: linkedin_auth.dfy ===
/** The start of the OAuth flow (app/api/linkedin/auth/route.js): the
    LinkedIn authorization URL the browser is redirected to. The client id
    and redirect URI come from the environment and may be unset. */
module LinkedinAuth {
  import opened Wrappers
  import opened UriComponent
  import opened QueryString
  import Env

  const AuthorizationEndpoint := "https://www.linkedin.com/oauth/v2/authorization"

  const Scope := "openid profile email w_member_social"

  /** The four parameters in the order the URL lists them: the client id as
      given, the redirect URI and the scope percent-encoded. */
  function AuthParams(clientId: Option<string>, redirectUri: Option<string>): seq<Param> {
    [Param("response_type", "code"),
     Param("client_id", Env.Text(clientId)),
     Param("redirect_uri", EncodeURIComponent(Env.Text(redirectUri))),
     Param("scope", EncodeURIComponent(Scope))]
  }

  /** The URL the browser is sent to. */
  function AuthorizationUrl(clientId: Option<string>, redirectUri: Option<string>): string {
    AuthorizationEndpoint + "?" + "response_type=code"
      + "&" + "client_id=" + Env.Text(clientId)
      + "&" + "redirect_uri=" + EncodeURIComponent(Env.Text(redirectUri))
      + "&" + "scope=" + EncodeURIComponent(Scope)
  }

  /** Encoding distributes over concatenation. */
  lemma {:induction false} EncodeAppend(a: string, b: string)
    ensures EncodeURIComponent(a + b) == EncodeURIComponent(a) + EncodeURIComponent(b)
    decreases |a|
  {
    if a != [] {
      assert (a + b)[0] == a[0];
      assert (a + b)[1..] == a[1..] + b;
      EncodeAppend(a[1..], b);
    } else {
      assert a + b == b;
    }
  }

  lemma {:induction false} EncodeUnreserved(w: string)
    requires forall i :: 0 <= i < |w| ==> IsUnreserved(w[i])
    ensures EncodeURIComponent(w) == w
    decreases |w|
  {
    if w != [] {
      EncodeUnreserved(w[1..]);
    }
  }

  lemma SpaceThen(rest: string)
    ensures EncodeURIComponent(" " + rest) == "%20" + EncodeURIComponent(rest)
  {
    assert (" " + rest)[0] == ' ';
    assert (" " + rest)[1..] == rest;
    assert EncodeChar(' ') == "%20";
  }

  lemma WordThenSpace(w: string, rest: string)
    requires forall i :: 0 <= i < |w| ==> IsUnreserved(w[i])
    ensures EncodeURIComponent(w + (" " + rest)) == w + ("%20" + EncodeURIComponent(rest))
  {
    EncodeAppend(w, " " + rest);
    EncodeUnreserved(w);
    SpaceThen(rest);
  }

  /** Four space-separated words of unreserved characters are encoded with
      each space turned into `%20`. */
  lemma FourWords(w1: string, w2: string, w3: string, w4: string)
    requires forall i :: 0 <= i < |w1| ==> IsUnreserved(w1[i])
    requires forall i :: 0 <= i < |w2| ==> IsUnreserved(w2[i])
    requires forall i :: 0 <= i < |w3| ==> IsUnreserved(w3[i])
    requires forall i :: 0 <= i < |w4| ==> IsUnreserved(w4[i])
    ensures EncodeURIComponent(w1 + (" " + (w2 + (" " + (w3 + (" " + w4))))))
         == w1 + ("%20" + (w2 + ("%20" + (w3 + ("%20" + w4)))))
  {
    EncodeUnreserved(w4);
    WordThenSpace(w3, w4);
    WordThenSpace(w2, w3 + (" " + w4));
    WordThenSpace(w1, w2 + (" " + (w3 + (" " + w4))));
  }

  lemma ScopeWords()
    ensures Scope == "openid" + (" " + ("profile" + (" " + ("email" + (" " + "w_member_social")))))
  {
  }

  lemma EncodedScopeWords()
    ensures "openid%20profile%20email%20w_member_social"
         == "openid" + ("%20" + ("profile" + ("%20" + ("email" + ("%20" + "w_member_social")))))
  {
  }

  lemma OpenidUnreserved() ensures forall i :: 0 <= i < |"openid"| ==> IsUnreserved("openid"[i]) {}
  lemma ProfileUnreserved() ensures forall i :: 0 <= i < |"profile"| ==> IsUnreserved("profile"[i]) {}
  lemma EmailUnreserved() ensures forall i :: 0 <= i < |"email"| ==> IsUnreserved("email"[i]) {}

  /** The scope travels as "openid%20profile%20email%20w_member_social". */
  lemma ScopeEncoding()
    ensures EncodeURIComponent(Scope) == "openid%20profile%20email%20w_member_social"
  {
    OpenidUnreserved();
    ProfileUnreserved();
    EmailUnreserved();
    assert forall i :: 0 <= i < |"w_member_social"| ==> IsUnreserved("w_member_social"[i]);
    FourWords("openid", "profile", "email", "w_member_social");
    ScopeWords();
    EncodedScopeWords();
  }

  lemma RenderFour(ps: seq<Param>)
    requires |ps| == 4
    ensures Render(ps) == Field(ps[0]) + "&" + Field(ps[1]) + "&" + Field(ps[2]) + "&" + Field(ps[3])
  {
    var fs := Fields(ps);
    var j3 := Join(fs[1..][1..][1..], '&');
    assert j3 == fs[3];
    var j2 := Join(fs[1..][1..], '&');
    assert j2 == fs[2] + "&" + fs[3];
    var j1 := Join(fs[1..], '&');
    assert j1 == fs[1] + "&" + (fs[2] + "&" + fs[3]);
    assert Render(ps) == fs[0] + "&" + (fs[1] + "&" + (fs[2] + "&" + fs[3]));
  }

  /** The rendering of the four parameters, for any values. */
  lemma RenderAuth(c: string, r: string, sc: string)
    ensures var ps := [Param("response_type", "code"), Param("client_id", c),
                       Param("redirect_uri", r), Param("scope", sc)];
      Render(ps) == "response_type=code" + "&" + "client_id=" + c
        + "&" + "redirect_uri=" + r + "&" + "scope=" + sc
  {
    var ps := [Param("response_type", "code"), Param("client_id", c),
               Param("redirect_uri", r), Param("scope", sc)];
    RenderFour(ps);
    assert Field(ps[0]) == "response_type=code";
    assert Field(ps[1]) == "client_id=" + c;
    assert Field(ps[2]) == "redirect_uri=" + r;
    assert Field(ps[3]) == "scope=" + sc;
  }

  /** The four parameters are read back from their rendering when no value
      holds `&`. */
  lemma ParseAuth(c: string, r: string, sc: string)
    requires '&' !in c && '&' !in r && '&' !in sc
    ensures var ps := [Param("response_type", "code"), Param("client_id", c),
                       Param("redirect_uri", r), Param("scope", sc)];
      Parse(Render(ps)) == ps
  {
    var ps := [Param("response_type", "code"), Param("client_id", c),
               Param("redirect_uri", r), Param("scope", sc)];
    assert Safe(ps[0]);
    assert Safe(ps[1]) && Safe(ps[2]) && Safe(ps[3]);
    ParseRender(ps);
  }

  lemma EncodedHasNoAmpersand(x: string)
    ensures '&' !in EncodeURIComponent(x)
  {
    var e := EncodeURIComponent(x);
    assert forall i :: 0 <= i < |e| ==> e[i] != '&';
  }

  /** The URL's text after the `?` is the rendering of its parameters. */
  lemma UrlQuery(c: string, r: string, sc: string)
    ensures AuthorizationEndpoint + "?" + "response_type=code"
        + "&" + "client_id=" + c
        + "&" + "redirect_uri=" + r
        + "&" + "scope=" + sc
      == AuthorizationEndpoint + "?" + Render([Param("response_type", "code"), Param("client_id", c),
                                               Param("redirect_uri", r), Param("scope", sc)])
  {
    RenderAuth(c, r, sc);
  }

  /** When the client id holds no `&`, the URL is the endpoint followed by
      the four parameters in order; reading its query gives them back, and
      decoding `redirect_uri` gives back the configured redirect URI. */
  lemma AuthorizationUrlParses(clientId: Option<string>, redirectUri: Option<string>)
    requires '&' !in Env.Text(clientId)
    ensures var ps := AuthParams(clientId, redirectUri);
      && AuthorizationUrl(clientId, redirectUri) == AuthorizationEndpoint + "?" + Render(ps)
      && Parse(Render(ps)) == ps
      && PercentDecode(Parse(Render(ps))[2].value) == Some(Env.Text(redirectUri))
  {
    var c := Env.Text(clientId);
    var r := EncodeURIComponent(Env.Text(redirectUri));
    var sc := EncodeURIComponent(Scope);
    EncodedHasNoAmpersand(Env.Text(redirectUri));
    EncodedHasNoAmpersand(Scope);
    UrlQuery(c, r, sc);
    ParseAuth(c, r, sc);
    DecodeEncode(Env.Text(redirectUri));
  }
}

=== FILE: linkedin_callback.dfy ===
/** The end of the OAuth flow (app/api/linkedin/callback/route.js): the
    authorization code is exchanged for a token, the LinkedIn profile is
    read, the account keyed on the LinkedIn id is created or refreshed, and
    the browser gets a 30-day `userId` session cookie and a redirect back to
    the app. The two LinkedIn calls are parameters of the model: their
    replies (or failures) are given, the requests sent are returned. */
module LinkedinCallback {
  import opened Wrappers
  import opened Document
  import opened UserModel
  import opened Store
  import Env

  const TokenEndpoint := "https://www.linkedin.com/oauth/v2/accessToken"

  /** The form `POST`ed to the token endpoint (`grant_type` is always
      `authorization_code`). */
  datatype TokenRequest = TokenRequest(code: string, clientId: Option<string>,
                                       clientSecret: Option<string>, redirectUri: Option<string>)

  /** The token endpoint's reply. */
  datatype TokenGrant = TokenGrant(accessToken: string, refreshToken: Option<string>, expiresIn: int)

  /** The `userinfo` reply: `sub` is the LinkedIn member id. */
  datatype UserInfo = UserInfo(sub: string, name: Option<string>, email: Option<string>, picture: Option<string>)

  datatype SessionCookie = SessionCookie(name: string, value: string, httpOnly: bool, secure: bool,
                                         sameSite: string, maxAge: int, path: string)

  /** Thirty days, in seconds. */
  const SessionMaxAge := 60 * 60 * 24 * 30

  /** Seconds of validity from now, as an absolute time in milliseconds. */
  function TokenExpiry(now: Millis, expiresIn: int): (t: Millis)
    ensures t - now == expiresIn * 1000
    ensures expiresIn > 0 ==> t > now
  {
    now + expiresIn * 1000
  }

  function Cookie(id: Id, production: bool): (c: SessionCookie)
    ensures c.name == "userId" && c.value == IdString(id)
    ensures c.httpOnly && c.secure == production && c.sameSite == "lax"
    ensures c.maxAge == 2592000 && c.path == "/"
  {
    SessionCookie("userId", IdString(id), true, production, "lax", SessionMaxAge, "/")
  }

  /** `!code`: a missing or empty `code` parameter. */
  predicate HasCode(code: Option<string>) {
    code.Some? && code.value != ""
  }

  function NoCodeRedirect(appUrl: Option<string>): string {
    Env.Text(appUrl) + "?error=no_code"
  }

  function ConnectedRedirect(appUrl: Option<string>): string {
    Env.Text(appUrl) + "?connected=true"
  }

  function FailedRedirect(appUrl: Option<string>): string {
    Env.Text(appUrl) + "?error=auth_failed"
  }

  /** The account a successful login leaves behind: the cookie it sets finds
      it, it carries the LinkedIn id, the token and the profile of the login,
      and it is the only account with that LinkedIn id. */
  lemma LoginFindsAccount(users: seq<User>, grant: TokenGrant, info: UserInfo, now: Millis)
    requires UniqueLinkedinIds(users)
    ensures var (after, id) := Upserted(users, info.sub, grant.accessToken, grant.refreshToken,
                                        TokenExpiry(now, grant.expiresIn),
                                        Profile(info.name, info.email, info.picture), now);
      && SessionUser(after, Some(Cookie(id, false).value), None) == Found(id)
      && after[id].linkedinId == info.sub
      && after[id].accessToken == grant.accessToken
      && after[id].tokenExpiry == Some(now + grant.expiresIn * 1000)
      && after[id].profile == Profile(info.name, info.email, info.picture)
      && (forall j :: 0 <= j < |after| && after[j].linkedinId == info.sub ==> j == id)
  {
    var (after, id) := Upserted(users, info.sub, grant.accessToken, grant.refreshToken,
                                TokenExpiry(now, grant.expiresIn),
                                Profile(info.name, info.email, info.picture), now);
    SessionOfIdString(after, id);
  }

  /** A second login with the same LinkedIn account updates the account the
      first one created instead of adding another. */
  lemma LoginTwiceKeepsOneAccount(users: seq<User>, g1: TokenGrant, g2: TokenGrant, info: UserInfo,
                                  t1: Millis, t2: Millis)
    requires UniqueLinkedinIds(users)
    ensures var p := Profile(info.name, info.email, info.picture);
      var (mid, id1) := Upserted(users, info.sub, g1.accessToken, g1.refreshToken, TokenExpiry(t1, g1.expiresIn), p, t1);
      var (after, id2) := Upserted(mid, info.sub, g2.accessToken, g2.refreshToken, TokenExpiry(t2, g2.expiresIn), p, t2);
      && id2 == id1 && |after| == |mid|
      && after[id2].accessToken == g2.accessToken
      && after[id2].createdAt == mid[id1].createdAt
  {
    var p := Profile(info.name, info.email, info.picture);
    var (mid, id1) := Upserted(users, info.sub, g1.accessToken, g1.refreshToken, TokenExpiry(t1, g1.expiresIn), p, t1);
    var (after, id2) := Upserted(mid, info.sub, g2.accessToken, g2.refreshToken, TokenExpiry(t2, g2.expiresIn), p, t2);
    assert after[id2].linkedinId == info.sub;
  }

  /** `grant` and `info` are the replies of the token exchange and of
      `userinfo` (a failure when the call throws); `connectFault` and
      `storeFault` are errors from connecting to and writing the store.
      Returns the redirect target, the cookie set (if any) and the token
      request sent (if any). */
  method Callback(db: Database, code: Option<string>, grant: Result<TokenGrant>, info: Result<UserInfo>,
                  connectFault: Option<string>, storeFault: Option<string>, now: Millis,
                  clientId: Option<string>, clientSecret: Option<string>, redirectUri: Option<string>,
                  appUrl: Option<string>, production: bool)
    returns (redirect: string, cookie: Option<SessionCookie>, exchange: Option<TokenRequest>)
    requires db.Valid()
    modifies db
    ensures db.Valid() && db.posts == old(db.posts)
    ensures !HasCode(code) ==>
      redirect == NoCodeRedirect(appUrl) && cookie.None? && exchange.None? && db.users == old(db.users)
    ensures HasCode(code) ==> exchange == Some(TokenRequest(code.value, clientId, clientSecret, redirectUri))
    ensures HasCode(code) && (grant.Failure? || info.Failure? || connectFault.Some? || storeFault.Some?) ==>
      redirect == FailedRedirect(appUrl) && cookie.None? && db.users == old(db.users)
    ensures HasCode(code) && grant.Success? && info.Success? && connectFault.None? && storeFault.None? ==>
      var g, u := grant.value, info.value;
      var (after, id) := Upserted(old(db.users), u.sub, g.accessToken, g.refreshToken,
                                  TokenExpiry(now, g.expiresIn), Profile(u.name, u.email, u.picture), now);
      && db.users == after
      && cookie == Some(Cookie(id, production))
      && redirect == ConnectedRedirect(appUrl)
    ensures cookie.Some? ==> SessionUser(db.users, Some(cookie.value.value), None).Found?
  {
    if !HasCode(code) {
      return NoCodeRedirect(appUrl), None, None;
    }
    exchange := Some(TokenRequest(code.value, clientId, clientSecret, redirectUri));
    if grant.Failure? || info.Failure? || connectFault.Some? {
      return FailedRedirect(appUrl), None, exchange;
    }
    var g, u := grant.value, info.value;
    var tokenExpiry := TokenExpiry(now, g.expiresIn);
    var r := db.UpsertByLinkedinId(u.sub, g.accessToken, g.refreshToken, tokenExpiry,
                                   Profile(u.name, u.email, u.picture), now, storeFault);
    if r.Failure? {
      return FailedRedirect(appUrl), None, exchange;
    }
    SessionOfIdString(db.users, r.value);
    cookie := Some(Cookie(r.value, production));
    redirect := ConnectedRedirect(appUrl);
  }
}

=== FILE: linkedin_post.dfy ===
/** Manual publishing (app/api/linkedin/post/route.js) and the LinkedIn
    `ugcPosts` share it sends. The HTTP call is replaced by its outcome, a
    `Publish`; the request that would be sent is returned as a value. */
module LinkedinPost {
  import opened Wrappers
  import opened Document
  import opened UserModel
  import opened Store

  datatype Media = Media(status: string, originalUrl: string)

  /** The share body: author, lifecycle state, commentary text, media
      category, the media list (absent in a text-only share) and
      visibility. */
  datatype UgcPost = UgcPost(
    author: string,
    lifecycleState: string,
    commentary: string,
    shareMediaCategory: string,
    media: Option<seq<Media>>,
    visibility: string)

  /** One POST to the ugcPosts endpoint with the account's bearer token. */
  datatype PublishRequest = PublishRequest(endpoint: string, bearerToken: string, payload: UgcPost)

  /** The outcome of the POST: the new share's id, or an error that may
      carry a provider payload message (`response.data.message`) beside the
      error's own message. */
  datatype Publish = Published(postId: string) | Rejected(providerMessage: Option<string>, message: string)

  const UgcPostsEndpoint := "https://api.linkedin.com/v2/ugcPosts"

  const PersonUrnPrefix := "urn:li:person:"

  /** A JavaScript string value as a condition: present and non-empty. */
  predicate Truthy(s: Option<string>) {
    s.Some? && s.value != ""
  }

  /** The shape the ugcPosts API expects of a share: a person author, a
      published public post, and media present exactly for an IMAGE share,
      each item READY. */
  predicate WellFormedShare(p: UgcPost) {
    && |p.author| >= |PersonUrnPrefix| && p.author[..|PersonUrnPrefix|] == PersonUrnPrefix
    && p.lifecycleState == "PUBLISHED"
    && p.visibility == "PUBLIC"
    && (p.shareMediaCategory == "IMAGE" || p.shareMediaCategory == "NONE")
    && (p.shareMediaCategory == "IMAGE" <==> p.media.Some?)
    && (p.media.Some? ==> |p.media.value| >= 1 && forall k :: 0 <= k < |p.media.value| ==> p.media.value[k].status == "READY")
  }

  /** The share built by the manual-publish handler. It is well formed; its
      author is the account's person URN and its text the caption; it is an
      IMAGE share with the one media item `{READY, imageUrl}` exactly when
      `imageUrl` is a non-empty string, and a text-only NONE share
      otherwise. */
  function UgcPayload(linkedinId: string, caption: string, imageUrl: Option<string>): (p: UgcPost)
    ensures WellFormedShare(p)
    ensures p.author == PersonUrnPrefix + linkedinId && p.commentary == caption
    ensures p.shareMediaCategory == "IMAGE" <==> Truthy(imageUrl)
    ensures p.media.Some? <==> Truthy(imageUrl)
    ensures p.media.Some? ==> p.media.value == [Media("READY", imageUrl.value)]
  {
    UgcPost(
      PersonUrnPrefix + linkedinId,
      "PUBLISHED",
      caption,
      if Truthy(imageUrl) then "IMAGE" else "NONE",
      if Truthy(imageUrl) then Some([Media("READY", imageUrl.value)]) else None,
      "PUBLIC")
  }

  /** The JSON body `{caption, imageUrl, userId}`. */
  datatype PostBody = PostBody(caption: string, imageUrl: Option<string>, userId: Option<string>)

  datatype PostResponse = PostedOk(postId: string) | UserNotFound | PostFailed(details: string)

  function PostStatusCode(r: PostResponse): int {
    match r
    case PostedOk(_) => 200
    case UserNotFound => 404
    case PostFailed(_) => 500
  }

  /** The manual-publish handler over the users collection. `body` is the
      parsed request (a failure when the JSON cannot be read),
      `connectFault` an error from connecting to the store, `queryFault` an
      error thrown by the `findById` query, `publish` the outcome of the
      LinkedIn call. Gives the response and the request sent, if any.
      `findById` casts the id before it queries, so an id that is not an id
      fails with the cast error whatever the query would do. Nothing is sent
      unless the account exists; an unknown or missing account id gives 404;
      any thrown error gives 500 with its message. */
  function HandlePost(users: seq<User>, body: Result<PostBody>, connectFault: Option<string>,
                      queryFault: Option<string>, publish: Publish): (out: (PostResponse, Option<PublishRequest>))
    ensures out.1.Some? ==>
      && body.Success? && connectFault.None? && queryFault.None? && body.value.userId.Some?
      && CastId(body.value.userId.value).Success?
      && var id := CastId(body.value.userId.value).value;
      && id < |users|
      && out.1.value == PublishRequest(UgcPostsEndpoint, users[id].accessToken,
                                       UgcPayload(users[id].linkedinId, body.value.caption, body.value.imageUrl))
    ensures body.Success? && connectFault.None? && queryFault.None? && body.value.userId.Some?
            && CastId(body.value.userId.value).Success? && CastId(body.value.userId.value).value < |users|
            ==> out.1.Some?
    ensures body.Failure? ==> out == (PostFailed(body.error), None)
    ensures body.Success? && connectFault.Some? ==> out == (PostFailed(connectFault.value), None)
    ensures body.Success? && connectFault.None? && body.value.userId.Some?
            && CastId(body.value.userId.value).Failure?
            ==> out == (PostFailed(CastId(body.value.userId.value).error), None)
    ensures body.Success? && connectFault.None? && queryFault.Some?
            && (body.value.userId.None? || CastId(body.value.userId.value).Success?)
            ==> out == (PostFailed(queryFault.value), None)
    ensures out.0.PostedOk? <==> out.1.Some? && publish.Published?
    ensures PostStatusCode(out.0) == 200 <==> out.1.Some? && publish.Published?
    ensures out.0.PostFailed? && out.1.Some? ==> publish.Rejected? && out.0.details == publish.message
    ensures out.0.PostedOk? ==> out.0.postId == publish.postId
    ensures out.0 == UserNotFound ==> out.1.None?
    ensures out.0 == UserNotFound <==>
      && body.Success? && connectFault.None? && queryFault.None?
      && (|| body.value.userId.None?
          || (CastId(body.value.userId.value).Success? && CastId(body.value.userId.value).value >= |users|))
  {
    match body
    case Failure(e) => (PostFailed(e), None)
    case Success(b) =>
      if connectFault.Some? then (PostFailed(connectFault.value), None)
      else match b.userId
        // findById(undefined) queries for a null id, which no account has
        case None => if queryFault.Some? then (PostFailed(queryFault.value), None) else (UserNotFound, None)
        case Some(s) =>
          match CastId(s)
          case Failure(e) => (PostFailed(e), None)
          case Success(id) =>
            if queryFault.Some? then (PostFailed(queryFault.value), None)
            else if id >= |users| then (UserNotFound, None)
            else
              var request := PublishRequest(UgcPostsEndpoint, users[id].accessToken,
                                            UgcPayload(users[id].linkedinId, b.caption, b.imageUrl));
              match publish
              case Published(postId) => (PostedOk(postId), Some(request))
              case Rejected(_, message) => (PostFailed(message), Some(request))
  }
}

=== FILE: linkedin_status.dfy ===
/** The connection-status query (app/api/linkedin/status/route.js): whether
    the session names a stored account and, if so, its public profile and
    schedule. It only reads the users collection. */
module LinkedinStatus {
  import opened Wrappers
  import opened Document
  import opened UserModel
  import opened Store

  datatype PublicProfile = PublicProfile(name: Option<string>, email: Option<string>, picture: Option<string>)

  datatype StatusResponse =
    | Connected(user: PublicProfile, schedule: Schedule)
    | NotConnected
    | StatusFailed(message: string)

  /** The HTTP status of each response. */
  function StatusCode(r: StatusResponse): int {
    if r.StatusFailed? then 500 else 200
  }

  /** `connectFault` is an error from connecting to the store (before the
      cookie is read), `queryFault` one from `findById`. Without a session
      or for an unknown id the answer is "not connected"; for a stored
      account it is "connected" with the profile's name, email and picture
      and the stored schedule; an error answers "not connected" with status
      500. */
  function Status(users: seq<User>, cookie: Option<string>, connectFault: Option<string>,
                  queryFault: Option<string>): (r: StatusResponse)
    ensures connectFault.Some? ==> r == StatusFailed(connectFault.value)
    ensures StatusCode(r) == 500 <==> connectFault.Some? || SessionUser(users, cookie, queryFault).LookupFailed?
    ensures connectFault.None? ==>
      var u := SessionUser(users, cookie, queryFault);
      && (u.NoSession? || u.Unknown? ==> r == NotConnected)
      && (u.LookupFailed? ==> r == StatusFailed(u.message))
      && (u.Found? ==>
            && r.Connected?
            && r.user.name == users[u.id].profile.name
            && r.user.email == users[u.id].profile.email
            && r.user.picture == users[u.id].profile.picture
            && r.schedule == users[u.id].schedule)
  {
    if connectFault.Some? then StatusFailed(connectFault.value)
    else match SessionUser(users, cookie, queryFault)
      case NoSession => NotConnected
      case Unknown => NotConnected
      case LookupFailed(e) => StatusFailed(e)
      case Found(id) =>
        var p := users[id].profile;
        Connected(PublicProfile(p.name, p.email, p.picture), users[id].schedule)
  }
}

=== FILE: occasion.dfy ===
/** `getTodayOccasion` (app/api/cron/generate-post/route.js): the label of
    today's occasion, looked up by an unpadded "month-day" key in a fixed
    table, or else the long en-US rendering of the date. The clock is an
    input: the local calendar fields of "now". */
module Occasion {
  import opened Wrappers
  import opened Decimal

  type Month = m: int | 1 <= m <= 12 witness 1

  type Day = d: int | 1 <= d <= 31 witness 1

  /** `getDay()`: 0 is Sunday. */
  type Weekday = w: int | 0 <= w < 7 witness 0

  datatype LocalDate = LocalDate(year: nat, month: Month, day: Day, weekday: Weekday)

  const Occasions: map<string, string> := map[
    "1-1" := "New Year's Day 2025",
    "2-14" := "Valentine's Day",
    "3-8" := "International Women's Day",
    "4-22" := "Earth Day",
    "5-1" := "Labour Day",
    "7-4" := "Independence Day (USA)",
    "10-31" := "Halloween",
    "11-27" := "Thanksgiving 2025",
    "12-25" := "Christmas"
  ]

  /** `${month}-${day}`. */
  function Key(month: Month, day: Day): string {
    Dec(month) + "-" + Dec(day)
  }

  function WeekdayName(w: Weekday): (name: string)
    ensures 6 <= |name| <= 9 && ',' !in name
  {
    ["Sunday", "Monday", "Tuesday", "Wednesday", "Thursday", "Friday", "Saturday"][w]
  }

  function MonthName(m: Month): (name: string)
    ensures 3 <= |name| <= 9
  {
    ["January", "February", "March", "April", "May", "June", "July",
     "August", "September", "October", "November", "December"][m - 1]
  }

  /** `toLocaleDateString("en-US", {weekday: "long", month: "long", day:
      "numeric", year: "numeric"})`, e.g. "Sunday, October 11, 2026". */
  function LongDate(d: LocalDate): (r: string)
    ensures ',' in r
  {
    var r := WeekdayName(d.weekday) + ", " + MonthName(d.month) + " " + Dec(d.day) + ", " + Dec(d.year);
    assert r[|WeekdayName(d.weekday)|] == ',';
    r
  }

  /** `occasions[key] || longDate`. */
  function TodayOccasion(d: LocalDate): (r: string)
    ensures r != ""
  {
    var key := Key(d.month, d.day);
    if key in Occasions && Occasions[key] != "" then Occasions[key] else LongDate(d)
  }

  /** The calendar of occasions, keyed by month and day numbers. */
  function Holiday(month: int, day: int): Option<string> {
    if month == 1 && day == 1 then Some("New Year's Day 2025")
    else if month == 2 && day == 14 then Some("Valentine's Day")
    else if month == 3 && day == 8 then Some("International Women's Day")
    else if month == 4 && day == 22 then Some("Earth Day")
    else if month == 5 && day == 1 then Some("Labour Day")
    else if month == 7 && day == 4 then Some("Independence Day (USA)")
    else if month == 10 && day == 31 then Some("Halloween")
    else if month == 11 && day == 27 then Some("Thanksgiving 2025")
    else if month == 12 && day == 25 then Some("Christmas")
    else None
  }

  lemma SplitAtDash(a: string, b: string, c: string, e: string)
    requires '-' !in a && '-' !in c
    requires a + "-" + b == c + "-" + e
    ensures a == c && b == e
  {
    var s := a + "-" + b;
    assert s[|a|] == '-' && s[|c|] == '-';
    assert s[..|a|] == a && s[..|c|] == c;
    assert forall i :: 0 <= i < |a| ==> s[i] != '-';
    assert forall i :: 0 <= i < |c| ==> s[i] != '-';
    assert a == s[..|a|] && c == s[..|c|];
    assert b == s[|a| + 1..] && e == s[|c| + 1..];
  }

  /** No two dates share a key: the dash separates month from day without
      ambiguity ("1-11" is not "11-1"). */
  lemma KeyInjective(m1: Month, d1: Day, m2: Month, d2: Day)
    ensures Key(m1, d1) == Key(m2, d2) ==> m1 == m2 && d1 == d2
  {
    if Key(m1, d1) == Key(m2, d2) {
      SplitAtDash(Dec(m1), Dec(d1), Dec(m2), Dec(d2));
      DecInjective(m1, m2);
      DecInjective(d1, d2);
    }
  }

  lemma WinterSpringKeys()
    ensures Key(1, 1) == "1-1" && Key(2, 14) == "2-14" && Key(3, 8) == "3-8"
  {
    assert Dec(14) == "14";
  }

  lemma SummerKeys()
    ensures Key(4, 22) == "4-22" && Key(5, 1) == "5-1" && Key(7, 4) == "7-4"
  {
    assert Dec(22) == "22";
  }

  lemma AutumnKeys()
    ensures Key(10, 31) == "10-31" && Key(11, 27) == "11-27" && Key(12, 25) == "12-25"
  {
    assert Dec(10) == "10" && Dec(11) == "11" && Dec(12) == "12";
    assert Dec(31) == "31" && Dec(27) == "27" && Dec(25) == "25";
  }

  /** On each of the nine dates the table gives that date's label. */
  lemma OnTable(d: LocalDate)
    requires Holiday(d.month, d.day).Some?
    ensures TodayOccasion(d) == Holiday(d.month, d.day).value
  {
    WinterSpringKeys();
    SummerKeys();
    AutumnKeys();
  }

  /** On every other date the key is not in the table. */
  lemma OffTable(d: LocalDate)
    requires Holiday(d.month, d.day).None?
    ensures TodayOccasion(d) == LongDate(d)
  {
    WinterSpringKeys();
    SummerKeys();
    AutumnKeys();
    var m, n := d.month, d.day;
    KeyInjective(m, n, 1, 1);
    KeyInjective(m, n, 2, 14);
    KeyInjective(m, n, 3, 8);
    KeyInjective(m, n, 4, 22);
    KeyInjective(m, n, 5, 1);
    KeyInjective(m, n, 7, 4);
    KeyInjective(m, n, 10, 31);
    KeyInjective(m, n, 11, 27);
    KeyInjective(m, n, 12, 25);
    assert Key(m, n) !in Occasions;
  }

  /** The table lookup agrees with the calendar: on each of the nine dates
      the occasion is that date's label, on every other date it is the long
      date rendering. */
  lemma TodayOccasionIsCalendar(d: LocalDate)
    ensures Holiday(d.month, d.day).Some? ==> TodayOccasion(d) == Holiday(d.month, d.day).value
    ensures Holiday(d.month, d.day).None? ==> TodayOccasion(d) == LongDate(d)
  {
    if Holiday(d.month, d.day).Some? {
      OnTable(d);
    } else {
      OffTable(d);
    }
  }

  /** Off the table the occasion is never one of the table's labels: every
      long date holds a comma and no label does. */
  lemma OffTableIsNoLabel(d: LocalDate)
    requires Holiday(d.month, d.day).None?
    ensures forall k :: k in Occasions ==> TodayOccasion(d) != Occasions[k]
  {
    TodayOccasionIsCalendar(d);
    var r := LongDate(d);
    forall k | k in Occasions
      ensures r != Occasions[k]
    {
      LabelHasNoComma(k);
    }
  }

  lemma LabelHasNoComma(k: string)
    requires k in Occasions
    ensures ',' !in Occasions[k]
  {
    var v := Occasions[k];
    if k == "1-1" { assert v == "New Year's Day 2025"; }
    else if k == "2-14" { assert v == "Valentine's Day"; }
    else if k == "3-8" { assert v == "International Women's Day"; }
    else if k == "4-22" { assert v == "Earth Day"; }
    else if k == "5-1" { assert v == "Labour Day"; }
    else if k == "7-4" { assert v == "Independence Day (USA)"; }
    else if k == "10-31" { assert v == "Halloween"; }
    else if k == "11-27" { assert v == "Thanksgiving 2025"; }
    else { assert v == "Christmas"; }
  }

  /** For years of at most four digits the occasion is at most 50
      characters long. */
  lemma OccasionLength(d: LocalDate)
    requires d.year < 10000
    ensures |TodayOccasion(d)| <= 50
  {
    TodayOccasionIsCalendar(d);
    DecLengthBound(d.day, 2);
    DecLengthBound(d.year, 4);
  }
}

=== FILE: post_model.dfy ===
/** The Post record (models/Post.js): one generated caption and the outcome
    of publishing it. */
module PostModel {
  import opened Wrappers
  import opened Document

  /** The `status` enum; no other value can be stored. */
  datatype PostStatus = Generated | Posted | Failed

  function StatusName(s: PostStatus): (name: string)
    ensures name == "generated" || name == "posted" || name == "failed"
  {
    match s
    case Generated => "generated"
    case Posted => "posted"
    case Failed => "failed"
  }

  /** The stored enum names tell the three statuses apart. */
  lemma StatusNameInjective(a: PostStatus, b: PostStatus)
    ensures StatusName(a) == StatusName(b) ==> a == b
  {
    if a != b {
      match a
      case Generated => assert StatusName(a)[0] == 'g';
      case Posted => assert StatusName(a)[0] == 'p';
      case Failed => assert StatusName(a)[0] == 'f';
    }
  }

  datatype Post = Post(
    id: Id,
    userId: Id,
    occasion: string,
    caption: string,
    imageUrl: Option<string>,
    imagePrompt: Option<string>,
    linkedinPostId: Option<string>,
    status: PostStatus,
    scheduledFor: Option<Millis>,
    postedAt: Option<Millis>,
    error: Option<string>,
    createdAt: Millis)

  /** A new document as `Post.create` builds it from the given fields and the
      schema's defaults: status `generated`, `createdAt` the creation time,
      and no publish linkage, posted time or error. */
  function NewPost(id: Id, userId: Id, occasion: string, caption: string,
                   imageUrl: Option<string>, imagePrompt: Option<string>,
                   scheduledFor: Option<Millis>, now: Millis): (p: Post)
    ensures p.status == Generated && p.createdAt == now
    ensures p.linkedinPostId.None? && p.postedAt.None? && p.error.None?
    ensures p.id == id && p.userId == userId && p.occasion == occasion && p.caption == caption
    ensures p.imageUrl == imageUrl && p.imagePrompt == imagePrompt && p.scheduledFor == scheduledFor
  {
    Post(id, userId, occasion, caption, imageUrl, imagePrompt, None, Generated,
         scheduledFor, None, None, now)
  }

  function RequiredMessage(path: string): string {
    path + ": Path `" + path + "` is required."
  }

  /** The schema's `required` validators: a required String path rejects a
      missing or empty value. The error names every failing path in schema
      order. (`userId` is an id and always present here.) */
  function Validate(p: Post): (err: Option<string>)
    ensures err.None? <==> p.occasion != "" && p.caption != ""
  {
    if p.occasion == "" && p.caption == "" then
      Some("Post validation failed: " + RequiredMessage("occasion") + ", " + RequiredMessage("caption"))
    else if p.occasion == "" then Some("Post validation failed: " + RequiredMessage("occasion"))
    else if p.caption == "" then Some("Post validation failed: " + RequiredMessage("caption"))
    else None
  }

  /** What a finished publish attempt leaves on a post: `posted` carries the
      LinkedIn id and a posted time and no error; `failed` carries an error
      and no LinkedIn id or posted time. */
  predicate StatusConsistent(p: Post) {
    && (p.status == Posted ==> p.linkedinPostId.Some? && p.postedAt.Some? && p.error.None?)
    && (p.status == Failed ==> p.error.Some? && p.linkedinPostId.None? && p.postedAt.None?)
  }
}

=== FILE: posts_today.dfy ===
/** Today's posts (app/api/posts/today/route.js): the session account's
    posts created in the current local day, newest first, each projected to
    the fields the dashboard shows. The clock is an input: the start of
    today and of tomorrow in local time (a local day need not last 24 hours
    across a daylight-saving change). The time-of-day rendering is a
    function given as input. The handler only reads the store. */
module PostsToday {
  import opened Wrappers
  import opened Document
  import opened PostModel
  import opened UserModel
  import opened Store

  /** The half-open window [start, end) of today. */
  datatype Window = Window(start: Millis, end: Millis)

  /** The query `{userId, createdAt: {$gte: start, $lt: end}}`. */
  predicate Matches(p: Post, uid: Id, w: Window) {
    p.userId == uid && w.start <= p.createdAt < w.end
  }

  predicate NewestFirst(s: seq<Post>) {
    forall i, j :: 0 <= i < j < |s| ==> s[i].createdAt >= s[j].createdAt
  }

  /** The matching posts, in store order; each matching post occurs as often
      as in the store, and nothing else occurs. */
  function Filter(posts: seq<Post>, uid: Id, w: Window): (r: seq<Post>)
    ensures forall p :: multiset(r)[p] == if Matches(p, uid, w) then multiset(posts)[p] else 0
    decreases |posts|
  {
    if posts == [] then []
    else
      var rest := Filter(posts[1..], uid, w);
      assert posts == [posts[0]] + posts[1..];
      if Matches(posts[0], uid, w) then [posts[0]] + rest else rest
  }

  lemma ConsNewest(x: Post, s: seq<Post>)
    requires NewestFirst(s)
    requires forall k :: 0 <= k < |s| ==> s[k].createdAt <= x.createdAt
    ensures NewestFirst([x] + s)
  {
    var r := [x] + s;
    forall i, j | 0 <= i < j < |r|
      ensures r[i].createdAt >= r[j].createdAt
    {
      assert r[j] == s[j - 1];
      if i > 0 { assert r[i] == s[i - 1]; }
    }
  }

  /** Putting a newer head `h` in front of the insertion into the rest
      keeps the order, the contents and the provenance. */
  lemma InsertBehind(p: Post, h: Post, rest: seq<Post>, tail: seq<Post>)
    requires NewestFirst([h] + rest) && p.createdAt < h.createdAt
    requires NewestFirst(tail)
    requires multiset(tail) == multiset(rest) + multiset{p}
    requires forall k :: 0 <= k < |tail| ==> tail[k] == p || tail[k] in rest
    ensures NewestFirst([h] + tail)
    ensures multiset([h] + tail) == multiset([h] + rest) + multiset{p}
    ensures forall k :: 0 <= k < |[h] + tail| ==> ([h] + tail)[k] == p || ([h] + tail)[k] in [h] + rest
  {
    forall k | 0 <= k < |tail|
      ensures tail[k].createdAt <= h.createdAt
    {
      if tail[k] != p {
        var j :| 0 <= j < |rest| && rest[j] == tail[k];
        assert ([h] + rest)[0] == h && ([h] + rest)[j + 1] == rest[j];
      }
    }
    ConsNewest(h, tail);
    var r := [h] + tail;
    forall k | 0 <= k < |r|
      ensures r[k] == p || r[k] in [h] + rest
    {
      if k > 0 { assert r[k] == tail[k - 1]; }
    }
  }

  /** Inserts `p` before the first post that is not newer. */
  function InsertNewest(p: Post, s: seq<Post>): (r: seq<Post>)
    requires NewestFirst(s)
    ensures NewestFirst(r)
    ensures multiset(r) == multiset(s) + multiset{p}
    ensures forall k :: 0 <= k < |r| ==> r[k] == p || r[k] in s
    decreases |s|
  {
    if s == [] || p.createdAt >= s[0].createdAt then
      ConsNewest(p, s);
      [p] + s
    else
      assert s == [s[0]] + s[1..];
      var tail := InsertNewest(p, s[1..]);
      InsertBehind(p, s[0], s[1..], tail);
      [s[0]] + tail
  }

  /** `.sort({createdAt: -1})`: the same posts, newest first. */
  function SortNewestFirst(s: seq<Post>): (r: seq<Post>)
    ensures NewestFirst(r)
    ensures multiset(r) == multiset(s)
    decreases |s|
  {
    if s == [] then []
    else
      assert s == [s[0]] + s[1..];
      InsertNewest(s[0], SortNewestFirst(s[1..]))
  }

  lemma TodayQueryMembers(posts: seq<Post>, uid: Id, w: Window, q: seq<Post>)
    requires forall p :: multiset(q)[p] == if Matches(p, uid, w) then multiset(posts)[p] else 0
    ensures forall k :: 0 <= k < |q| ==> q[k].userId == uid && w.start <= q[k].createdAt < w.end
    ensures forall p :: p in posts && Matches(p, uid, w) ==> p in q
  {
    forall k | 0 <= k < |q|
      ensures Matches(q[k], uid, w)
    {
      assert multiset(q)[q[k]] > 0;
    }
    forall p | p in posts && Matches(p, uid, w)
      ensures p in q
    {
      assert multiset(posts)[p] > 0;
      assert multiset(q)[p] > 0;
    }
  }

  /** The query result: exactly the account's posts inside the window, with
      their multiplicities, newest first. */
  function TodayQuery(posts: seq<Post>, uid: Id, w: Window): (q: seq<Post>)
    ensures NewestFirst(q)
    ensures forall p :: multiset(q)[p] == if Matches(p, uid, w) then multiset(posts)[p] else 0
    ensures forall k :: 0 <= k < |q| ==> q[k].userId == uid && w.start <= q[k].createdAt < w.end
    ensures forall p :: p in posts && Matches(p, uid, w) ==> p in q
  {
    var q := SortNewestFirst(Filter(posts, uid, w));
    TodayQueryMembers(posts, uid, w, q);
    q
  }

  /** One item of the response. */
  datatype TodayEntry = TodayEntry(
    id: Id,
    occasion: string,
    caption: string,
    imageUrl: Option<string>,
    status: PostStatus,
    time: string,
    postedAt: Option<Millis>)

  function Project(p: Post, renderTime: Millis -> string): (e: TodayEntry)
    ensures e.id == p.id && e.occasion == p.occasion && e.caption == p.caption
    ensures e.imageUrl == p.imageUrl && e.status == p.status && e.postedAt == p.postedAt
    ensures e.time == renderTime(p.createdAt)
  {
    TodayEntry(p.id, p.occasion, p.caption, p.imageUrl, p.status, renderTime(p.createdAt), p.postedAt)
  }

  function Projections(q: seq<Post>, renderTime: Millis -> string): (es: seq<TodayEntry>)
    ensures |es| == |q|
    ensures forall k :: 0 <= k < |q| ==> es[k] == Project(q[k], renderTime)
  {
    if q == [] then [] else [Project(q[0], renderTime)] + Projections(q[1..], renderTime)
  }

  /** `{posts}`; on an error the list is empty and the message is added. */
  datatype TodayResponse = TodayPosts(posts: seq<TodayEntry>) | TodayFailed(message: string)

  function StatusCode(r: TodayResponse): int {
    if r.TodayFailed? then 500 else 200
  }

  /** `connectFault` is an error from connecting, `queryFault` one from
      `findById` or from the posts query. Without a session or for an
      unknown account the list is empty; for a stored account it is the
      projection of `TodayQuery` for that account. */
  function TodayPostsResponse(users: seq<User>, posts: seq<Post>, cookie: Option<string>, w: Window,
                              connectFault: Option<string>, queryFault: Option<string>,
                              renderTime: Millis -> string): (r: TodayResponse)
    ensures connectFault.Some? ==> r == TodayFailed(connectFault.value)
    ensures StatusCode(r) == 500 <==> connectFault.Some? || SessionUser(users, cookie, queryFault).LookupFailed?
    ensures connectFault.None? ==>
      var u := SessionUser(users, cookie, queryFault);
      && (u.NoSession? || u.Unknown? ==> r == TodayPosts([]))
      && (u.LookupFailed? ==> r == TodayFailed(u.message))
      && (u.Found? ==> r.TodayPosts? && r.posts == Projections(TodayQuery(posts, u.id, w), renderTime))
  {
    if connectFault.Some? then TodayFailed(connectFault.value)
    else match SessionUser(users, cookie, queryFault)
      case NoSession => TodayPosts([])
      case Unknown => TodayPosts([])
      case LookupFailed(e) => TodayFailed(e)
      case Found(id) => TodayPosts(Projections(TodayQuery(posts, id, w), renderTime))
  }
}

=== FILE: query_string.dfy ===
/** The `name=value&name=value` form of a URL query, and the reading of a
    query back into its parameters (JavaScript's `split("&")`, each field cut
    at its first `=`, as `URLSearchParams` does before unescaping). */
module QueryString {

  datatype Param = Param(name: string, value: string)

  /** The first position of `c` in `s`. */
  function IndexOf(s: string, c: char): (i: nat)
    requires c in s
    ensures i < |s| && s[i] == c && c !in s[..i]
  {
    if s[0] == c then 0 else 1 + IndexOf(s[1..], c)
  }

  /** `s.split(c)`: the pieces between occurrences of `c`. */
  function Split(s: string, c: char): (parts: seq<string>)
    ensures |parts| >= 1
    ensures forall k :: 0 <= k < |parts| ==> c !in parts[k]
    decreases |s|
  {
    if c !in s then [s] else var i := IndexOf(s, c); [s[..i]] + Split(s[i + 1..], c)
  }

  /** `parts.join(c)`. */
  function Join(parts: seq<string>, c: char): string
    requires |parts| >= 1
  {
    if |parts| == 1 then parts[0] else parts[0] + [c] + Join(parts[1..], c)
  }

  lemma SplitAtFirst(a: string, c: char, b: string)
    requires c !in a
    ensures Split(a + [c] + b, c) == [a] + Split(b, c)
  {
    var s := a + [c] + b;
    assert s[|a|] == c;
    var i := IndexOf(s, c);
    assert s[..i] == a;
    assert s[i + 1..] == b;
  }

  /** Splitting undoes joining, provided no part holds the separator. */
  lemma {:induction false} SplitJoin(parts: seq<string>, c: char)
    requires |parts| >= 1
    requires forall k :: 0 <= k < |parts| ==> c !in parts[k]
    ensures Split(Join(parts, c), c) == parts
    decreases |parts|
  {
    if |parts| > 1 {
      SplitAtFirst(parts[0], c, Join(parts[1..], c));
      SplitJoin(parts[1..], c);
      assert [parts[0]] + parts[1..] == parts;
    }
  }

  function Field(p: Param): string {
    p.name + "=" + p.value
  }

  function ParseField(f: string): Param {
    if '=' in f then var i := IndexOf(f, '='); Param(f[..i], f[i + 1..]) else Param(f, "")
  }

  function Fields(ps: seq<Param>): (fs: seq<string>)
    ensures |fs| == |ps|
    ensures forall k :: 0 <= k < |ps| ==> fs[k] == Field(ps[k])
  {
    if ps == [] then [] else [Field(ps[0])] + Fields(ps[1..])
  }

  function ParseFields(fs: seq<string>): (ps: seq<Param>)
    ensures |ps| == |fs|
    ensures forall k :: 0 <= k < |fs| ==> ps[k] == ParseField(fs[k])
  {
    if fs == [] then [] else [ParseField(fs[0])] + ParseFields(fs[1..])
  }

  /** The query text of a non-empty list of parameters, in order. */
  function Render(ps: seq<Param>): string
    requires |ps| >= 1
  {
    Join(Fields(ps), '&')
  }

  function Parse(query: string): seq<Param> {
    ParseFields(Split(query, '&'))
  }

  /** A parameter whose name has no `&` or `=` and whose value has no `&`
      comes through the query unchanged. */
  predicate Safe(p: Param) {
    '&' !in p.name && '=' !in p.name && '&' !in p.value
  }

  lemma ParseFieldOfField(p: Param)
    requires '=' !in p.name
    ensures ParseField(Field(p)) == p
  {
    var f := Field(p);
    assert f[|p.name|] == '=';
    var i := IndexOf(f, '=');
    assert f[..i] == p.name;
    assert f[i + 1..] == p.value;
  }

  /** Reading a rendered query gives back its parameters, in order. */
  lemma ParseRender(ps: seq<Param>)
    requires |ps| >= 1
    requires forall k :: 0 <= k < |ps| ==> Safe(ps[k])
    ensures Parse(Render(ps)) == ps
  {
    var fs := Fields(ps);
    forall k | 0 <= k < |fs|
      ensures '&' !in fs[k]
    {
      assert fs[k] == ps[k].name + "=" + ps[k].value;
    }
    SplitJoin(fs, '&');
    forall k | 0 <= k < |ps|
      ensures ParseField(fs[k]) == ps[k]
    {
      ParseFieldOfField(ps[k]);
    }
  }
}

=== FILE: schedule_route.dfy ===
/** The schedule update (app/api/schedule/route.js): the session's account
    gets the requested `{time, timezone, enabled}` stored as given, with no
    check of the time or timezone text. */
module ScheduleRoute {
  import opened Wrappers
  import opened Document
  import opened UserModel
  import opened Store
  import LinkedinStatus

  datatype ScheduleResponse =
    | ScheduleSaved(schedule: Schedule)
    | NotAuthenticated
    | ScheduleUserNotFound
    | ScheduleFailed(details: string)

  function StatusCode(r: ScheduleResponse): int {
    match r
    case ScheduleSaved(_) => 200
    case NotAuthenticated => 401
    case ScheduleUserNotFound => 404
    case ScheduleFailed(_) => 500
  }

  /** The `error` field of the response body; a saved schedule has none. */
  function ErrorText(r: ScheduleResponse): Option<string> {
    match r
    case ScheduleSaved(_) => None
    case NotAuthenticated => Some("Not authenticated")
    case ScheduleUserNotFound => Some("User not found")
    case ScheduleFailed(_) => Some("Failed to update schedule")
  }

  /** `body` is the parsed request (a failure when `request.json()` throws);
      `connectFault`, `queryFault` and `saveFault` are errors from
      connecting, from `findById` and from `user.save()`. The steps run in
      the handler's order: parse, connect, session check, lookup, save. */
  method UpdateSchedule(db: Database, body: Result<Schedule>, cookie: Option<string>,
                        connectFault: Option<string>, queryFault: Option<string>,
                        saveFault: Option<string>)
    returns (resp: ScheduleResponse)
    requires db.Valid()
    modifies db
    ensures db.Valid() && db.posts == old(db.posts)
    ensures !resp.ScheduleSaved? ==> db.users == old(db.users)
    ensures body.Failure? ==> resp == ScheduleFailed(body.error)
    ensures StatusCode(resp) == 401 <==>
      body.Success? && connectFault.None? && SessionUser(old(db.users), cookie, queryFault).NoSession?
    ensures body.Success? && connectFault.Some? ==> resp == ScheduleFailed(connectFault.value)
    ensures ErrorText(resp) == Some("Not authenticated") <==> StatusCode(resp) == 401
    ensures ErrorText(resp) == Some("User not found") <==>
      body.Success? && connectFault.None? && SessionUser(old(db.users), cookie, queryFault).Unknown?
    ensures ErrorText(resp) == Some("Failed to update schedule") <==>
      || body.Failure? || connectFault.Some?
      || SessionUser(old(db.users), cookie, queryFault).LookupFailed?
      || (SessionUser(old(db.users), cookie, queryFault).Found? && saveFault.Some?)
    ensures ErrorText(resp).None? <==>
      && body.Success? && connectFault.None?
      && SessionUser(old(db.users), cookie, queryFault).Found? && saveFault.None?
    ensures body.Success? && connectFault.None? ==>
      var u := SessionUser(old(db.users), cookie, queryFault);
      && (u.NoSession? ==> resp == NotAuthenticated)
      && (u.Unknown? ==> resp == ScheduleUserNotFound)
      && (u.LookupFailed? ==> resp == ScheduleFailed(u.message))
      && (u.Found? && saveFault.Some? ==> resp == ScheduleFailed(saveFault.value))
      && (u.Found? && saveFault.None? ==>
            resp == ScheduleSaved(body.value) && db.users == WithSchedule(old(db.users), u.id, body.value))
  {
    if body.Failure? {
      return ScheduleFailed(body.error);
    }
    if connectFault.Some? {
      return ScheduleFailed(connectFault.value);
    }
    var lookup := SessionUser(db.users, cookie, queryFault);
    match lookup {
      case NoSession => resp := NotAuthenticated;
      case Unknown => resp := ScheduleUserNotFound;
      case LookupFailed(e) => resp := ScheduleFailed(e);
      case Found(id) =>
        var err := db.SaveSchedule(id, body.value, saveFault);
        if err.Some? {
          resp := ScheduleFailed(err.value);
        } else {
          resp := ScheduleSaved(db.users[id].schedule);
        }
    }
  }

  /** Setting a schedule and then asking for the status gives back exactly
      the schedule that was set, with the same profile as before. */
  lemma ScheduleRoundTrip(users: seq<User>, cookie: Option<string>, s: Schedule)
    requires SessionUser(users, cookie, None).Found?
    ensures var id := SessionUser(users, cookie, None).id;
      LinkedinStatus.Status(WithSchedule(users, id, s), cookie, None, None)
        == LinkedinStatus.Connected(
             LinkedinStatus.PublicProfile(users[id].profile.name, users[id].profile.email, users[id].profile.picture), s)
  {
    var id := SessionUser(users, cookie, None).id;
    assert SessionUser(WithSchedule(users, id, s), cookie, None) == Found(id);
  }
}

=== FILE: store.dfy ===
/** The record store the handlers read and write: the User and Post
    collections, the session lookup every handler starts with, and the
    writes the handlers perform (`Post.create`, `post.save()`,
    `User.findOneAndUpdate` with upsert, `user.save()` of a new schedule).
    A write that fails (`fault`) leaves the store as it was. */
module Store {
  import opened Wrappers
  import opened Document
  import opened PostModel
  import opened UserModel

  /** The `userId` cookie as the handlers test it: absent or empty means no
      session. */
  function Session(cookie: Option<string>): (s: Option<string>)
    ensures s.Some? <==> cookie.Some? && cookie.value != ""
    ensures s.Some? ==> s == cookie
  {
    if cookie.Some? && cookie.value != "" then cookie else None
  }

  /** The outcome of reading the session cookie and `User.findById` on it. */
  datatype Lookup = NoSession | LookupFailed(message: string) | Unknown | Found(id: Id)

  /** `findById(cookie)`: the cookie is cast to an id before any query runs,
      so a cookie that is not an id fails with the cast error whatever the
      store would do; a cast id fails when the store throws (`fault`), and
      finds nothing when no record has it. */
  function SessionUser(users: seq<User>, cookie: Option<string>, fault: Option<string>): (r: Lookup)
    ensures r.NoSession? <==> Session(cookie).None?
    ensures r.Found? ==> r.id < |users| && fault.None? && CastId(cookie.value) == Success(r.id)
    ensures r.Unknown? ==> fault.None? && CastId(cookie.value).Success? && CastId(cookie.value).value >= |users|
    ensures Session(cookie).Some? && CastId(cookie.value).Failure? ==>
      r == LookupFailed(CastId(cookie.value).error)
    ensures Session(cookie).Some? && CastId(cookie.value).Success? && fault.Some? ==>
      r == LookupFailed(fault.value)
    ensures Session(cookie).Some? && CastId(cookie.value).Success? && fault.None? ==>
      r == if CastId(cookie.value).value < |users| then Found(CastId(cookie.value).value) else Unknown
  {
    match Session(cookie)
    case None => NoSession
    case Some(s) =>
      match CastId(s)
      case Failure(e) => LookupFailed(e)
      case Success(id) =>
        if fault.Some? then LookupFailed(fault.value)
        else if id < |users| then Found(id) else Unknown
  }

  /** The session cookie set for account `id` finds that account again. */
  lemma SessionOfIdString(users: seq<User>, id: Id)
    requires id < |users|
    ensures SessionUser(users, Some(IdString(id)), None) == Found(id)
  {
    CastIdString(id);
  }

  /** The query `{linkedinId: lid}`. */
  function FindByLinkedinId(users: seq<User>, lid: string): (r: Option<Id>)
    ensures r.Some? ==> r.value < |users| && users[r.value].linkedinId == lid
    ensures r.None? ==> forall i :: 0 <= i < |users| ==> users[i].linkedinId != lid
    decreases |users|
  {
    if users == [] then None
    else if users[|users| - 1].linkedinId == lid then Some(|users| - 1)
    else FindByLinkedinId(users[..|users| - 1], lid)
  }

  /** `findOneAndUpdate({linkedinId}, fields, {upsert: true, new: true})`,
      giving the collection afterwards and the account's id. It keeps
      `linkedinId` unique and leaves exactly one account with the given
      LinkedIn id; that account has the new credentials, expiry and profile;
      an existing account keeps its schedule, subscription and creation time,
      a new one is appended with the schema defaults; no other account
      changes. */
  function Upserted(users: seq<User>, lid: string, accessToken: string, refreshToken: Option<string>,
                    tokenExpiry: Millis, profile: Profile, now: Millis): (r: (seq<User>, Id))
    ensures var (after, id) := r;
      && id < |after| && |users| <= |after| <= |users| + 1
      && (UniqueLinkedinIds(users) ==> UniqueLinkedinIds(after))
      && (UniqueLinkedinIds(users) ==> forall j :: 0 <= j < |after| ==> (after[j].linkedinId == lid <==> j == id))
      && after[id].accessToken == accessToken && after[id].refreshToken == refreshToken
      && after[id].tokenExpiry == Some(tokenExpiry) && after[id].profile == profile
      && (forall j :: 0 <= j < |users| && j != id ==> after[j] == users[j])
      && (id < |users| ==>
            && after[id].schedule == users[id].schedule
            && after[id].subscription == users[id].subscription
            && after[id].createdAt == users[id].createdAt)
      && (id == |users| ==>
            && after[id].schedule == DefaultSchedule
            && after[id].subscription == DefaultSubscription
            && after[id].createdAt == now)
  {
    match FindByLinkedinId(users, lid)
    case Some(i) =>
      (users[i := users[i].(accessToken := accessToken, refreshToken := refreshToken,
                            tokenExpiry := Some(tokenExpiry), profile := profile)], i)
    case None =>
      (users + [NewUser(lid, accessToken, refreshToken, Some(tokenExpiry), profile, now)], |users|)
  }

  /** `user.schedule = s; user.save()`. */
  function WithSchedule(users: seq<User>, id: Id, s: Schedule): (after: seq<User>)
    requires id < |users|
    ensures |after| == |users| && after[id].schedule == s
    ensures after[id] == users[id].(schedule := s)
    ensures forall j :: 0 <= j < |users| && j != id ==> after[j] == users[j]
    ensures UniqueLinkedinIds(users) ==> UniqueLinkedinIds(after)
  {
    users[id := users[id].(schedule := s)]
  }

  /** Both collections. A user's id is its position in `users`, a post's id
      its position in `posts`; neither collection ever shrinks. */
  class Database {
    var users: seq<User>
    var posts: seq<Post>

    ghost predicate Valid()
      reads this
    {
      && UniqueLinkedinIds(users)
      && (forall i :: 0 <= i < |posts| ==> posts[i].id == i)
    }

    constructor ()
      ensures Valid() && users == [] && posts == []
    {
      users := [];
      posts := [];
    }

    /** `Post.create(p)`: validation first, then the insert; `p.id` is the
        fresh id of the document being created. */
    method CreatePost(p: Post, fault: Option<string>) returns (r: Result<Post>)
      requires Valid() && p.id == |posts|
      modifies this
      ensures Valid() && users == old(users)
      ensures Validate(p).Some? ==> r == Failure(Validate(p).value) && posts == old(posts)
      ensures Validate(p).None? && fault.Some? ==> r == Failure(fault.value) && posts == old(posts)
      ensures Validate(p).None? && fault.None? ==> r == Success(p) && posts == old(posts) + [p]
    {
      var invalid := Validate(p);
      if invalid.Some? {
        return Failure(invalid.value);
      }
      if fault.Some? {
        return Failure(fault.value);
      }
      posts := posts + [p];
      r := Success(p);
    }

    /** `post.save()` of a post created earlier. */
    method SavePost(p: Post, fault: Option<string>) returns (err: Option<string>)
      requires Valid() && p.id < |posts|
      modifies this
      ensures Valid() && users == old(users)
      ensures err == fault
      ensures posts == if fault.None? then old(posts)[p.id := p] else old(posts)
    {
      err := fault;
      if fault.None? {
        posts := posts[p.id := p];
      }
    }

    /** `User.findOneAndUpdate` with upsert, keyed on the LinkedIn id. */
    method UpsertByLinkedinId(lid: string, accessToken: string, refreshToken: Option<string>,
                              tokenExpiry: Millis, profile: Profile, now: Millis, fault: Option<string>)
      returns (r: Result<Id>)
      requires Valid()
      modifies this
      ensures Valid() && posts == old(posts)
      ensures fault.Some? ==> r == Failure(fault.value) && users == old(users)
      ensures fault.None? ==>
        var (after, id) := Upserted(old(users), lid, accessToken, refreshToken, tokenExpiry, profile, now);
        r == Success(id) && users == after
    {
      if fault.Some? {
        return Failure(fault.value);
      }
      var (after, id) := Upserted(users, lid, accessToken, refreshToken, tokenExpiry, profile, now);
      users := after;
      r := Success(id);
    }

    /** `user.schedule = s; await user.save()`. */
    method SaveSchedule(id: Id, s: Schedule, fault: Option<string>) returns (err: Option<string>)
      requires Valid() && id < |users|
      modifies this
      ensures Valid() && posts == old(posts)
      ensures err == fault
      ensures users == if fault.None? then WithSchedule(old(users), id, s) else old(users)
    {
      err := fault;
      if fault.None? {
        users := WithSchedule(users, id, s);
      }
    }
  }
}

=== FILE: uri_component.dfy ===
/** JavaScript's `encodeURIComponent` (ECMAScript's Encode operation with the
    component-unreserved set): every character outside the unreserved set is
    written as the `%XY` escapes of its UTF-8 bytes, with upper-case hex
    digits. `PercentDecode` is the matching `decodeURIComponent`; the two are
    inverse (`DecodeEncode`). */
module UriComponent {
  import opened Wrappers

  /** Letters, digits and `-_.!~*'()`: the characters left as they are. */
  predicate IsUnreserved(c: char) {
    || ('A' <= c <= 'Z') || ('a' <= c <= 'z') || ('0' <= c <= '9')
    || c == '-' || c == '_' || c == '.' || c == '!' || c == '~'
    || c == '*' || c == '\'' || c == '(' || c == ')'
  }

  predicate IsByte(b: int) {
    0 <= b < 256
  }

  predicate AllBytes(bs: seq<int>) {
    forall i :: 0 <= i < |bs| ==> IsByte(bs[i])
  }

  /** The code points a Dafny `char` can hold: Unicode scalar values. */
  predicate IsScalar(cp: int) {
    (0 <= cp < 0xD800) || (0xE000 <= cp < 0x11_0000)
  }

  predicate IsContinuation(b: int) {
    0x80 <= b < 0xC0
  }

  /** The UTF-8 encoding of one scalar value. */
  function Utf8(cp: int): (bs: seq<int>)
    requires IsScalar(cp)
    ensures 1 <= |bs| <= 4 && AllBytes(bs)
  {
    if cp < 0x80 then [cp]
    else if cp < 0x800 then [0xC0 + cp / 64, 0x80 + cp % 64]
    else if cp < 0x1_0000 then [0xE0 + cp / 4096, 0x80 + (cp / 64) % 64, 0x80 + cp % 64]
    else [0xF0 + cp / 262144, 0x80 + (cp / 4096) % 64, 0x80 + (cp / 64) % 64, 0x80 + cp % 64]
  }

  /** The number of bytes a sequence starting with `lead` has; 0 when `lead`
      cannot start one. */
  function SequenceLength(lead: int): (n: nat)
    ensures n <= 4
  {
    if 0 <= lead < 0x80 then 1
    else if 0xC0 <= lead < 0xE0 then 2
    else if 0xE0 <= lead < 0xF0 then 3
    else if 0xF0 <= lead < 0xF8 then 4
    else 0
  }

  /** The smallest code point a sequence of `n` bytes may carry (shorter forms
      are rejected as overlong). */
  function MinCodePoint(n: nat): int
    requires 1 <= n <= 4
  {
    if n == 1 then 0 else if n == 2 then 0x80 else if n == 3 then 0x800 else 0x1_0000
  }

  function Utf8Value(bs: seq<int>): int
    requires 1 <= |bs| <= 4
  {
    if |bs| == 1 then bs[0]
    else if |bs| == 2 then (bs[0] - 0xC0) * 64 + (bs[1] - 0x80)
    else if |bs| == 3 then (bs[0] - 0xE0) * 4096 + (bs[1] - 0x80) * 64 + (bs[2] - 0x80)
    else (bs[0] - 0xF0) * 262144 + (bs[1] - 0x80) * 4096 + (bs[2] - 0x80) * 64 + (bs[3] - 0x80)
  }

  /** Decoding the bytes of `Utf8(cp)` gives back `cp`, and the bytes are a
      well-formed, shortest-form sequence. */
  lemma Utf8RoundTrip(cp: int)
    requires IsScalar(cp)
    ensures var bs := Utf8(cp);
      && SequenceLength(bs[0]) == |bs|
      && (forall i :: 1 <= i < |bs| ==> IsContinuation(bs[i]))
      && Utf8Value(bs) == cp
      && cp >= MinCodePoint(|bs|)
  {
    if cp >= 0x1_0000 {
      FourByteValue(cp);
    } else if cp >= 0x800 {
      assert cp % 4096 == (cp / 64) % 64 * 64 + cp % 64;
    }
  }

  /** Dividing by 64 twice is dividing by 4096. */
  lemma DivideTwice(x: nat)
    ensures x / 64 / 64 == x / 4096
  {
    var q, r := x / 4096, x % 4096;
    assert x == 64 * (64 * q + r / 64) + r % 64;
  }

  lemma FourByteValue(cp: int)
    requires 0x1_0000 <= cp < 0x11_0000
    ensures cp / 262144 < 8
    ensures cp / 262144 * 262144 + (cp / 4096) % 64 * 4096 + (cp / 64) % 64 * 64 + cp % 64 == cp
  {
    DivideTwice(cp);
    DivideTwice(cp / 64);
    assert cp / 64 / 64 / 64 == cp / 262144;
    assert cp == 64 * (cp / 64) + cp % 64;
    assert cp / 64 == 64 * (cp / 4096) + (cp / 64) % 64;
    assert cp / 4096 == 64 * (cp / 262144) + (cp / 4096) % 64;
  }

  function HexDigit(d: int): (c: char)
    requires 0 <= d < 16
    ensures IsUnreserved(c) && HexValue(c) == Some(d)
  {
    if d < 10 then ('0' as int + d) as char else ('A' as int + d - 10) as char
  }

  /** The value of a hex digit of either case. */
  function HexValue(c: char): (v: Option<int>)
    ensures v.Some? ==> 0 <= v.value < 16
  {
    if '0' <= c <= '9' then Some(c as int - '0' as int)
    else if 'A' <= c <= 'F' then Some(c as int - 'A' as int + 10)
    else if 'a' <= c <= 'f' then Some(c as int - 'a' as int + 10)
    else None
  }

  function Escape(b: int): (e: string)
    requires IsByte(b)
    ensures |e| == 3 && e[0] == '%'
  {
    ['%', HexDigit(b / 16), HexDigit(b % 16)]
  }

  function Escapes(bs: seq<int>): (e: string)
    requires AllBytes(bs)
    ensures |e| == 3 * |bs|
    ensures bs != [] ==> e[0] == '%'
    ensures forall i :: 0 <= i < |e| ==> IsUnreserved(e[i]) || e[i] == '%'
  {
    if bs == [] then [] else Escape(bs[0]) + Escapes(bs[1..])
  }

  function EncodeChar(c: char): (e: string)
    ensures |e| >= 1
    ensures forall i :: 0 <= i < |e| ==> IsUnreserved(e[i]) || e[i] == '%'
  {
    if IsUnreserved(c) then [c] else Escapes(Utf8(c as int))
  }

  /** `encodeURIComponent(s)`. The result is made of unreserved characters
      and `%` only, so it never holds `&`, `=`, `?`, `#`, `/` or a space; a
      string of unreserved characters comes back unchanged. */
  function EncodeURIComponent(s: string): (r: string)
    ensures forall i :: 0 <= i < |r| ==> IsUnreserved(r[i]) || r[i] == '%'
    ensures |r| >= |s|
    ensures (forall i :: 0 <= i < |s| ==> IsUnreserved(s[i])) ==> r == s
    decreases |s|
  {
    if s == [] then [] else EncodeChar(s[0]) + EncodeURIComponent(s[1..])
  }

  /** Reads one `%XY` escape at the start of `s`. */
  function ReadEscape(s: string): (r: Option<int>)
    ensures r.Some? ==> |s| >= 3 && IsByte(r.value)
  {
    if |s| >= 3 && s[0] == '%' then
      match (HexValue(s[1]), HexValue(s[2]))
      case (Some(h), Some(l)) => Some(16 * h + l)
      case _ => None
    else None
  }

  /** Reads `n` consecutive escapes at the start of `s`. */
  function ReadEscapes(s: string, n: nat): (r: Option<seq<int>>)
    ensures r.Some? ==> |r.value| == n && |s| >= 3 * n && AllBytes(r.value)
    decreases n
  {
    if n == 0 then Some([])
    else match ReadEscape(s)
      case None => None
      case Some(b) =>
        match ReadEscapes(s[3..], n - 1)
        case None => None
        case Some(bs) => Some([b] + bs)
  }

  /** Decodes the escaped UTF-8 sequence at the start of `s`: the character
      and how many characters of `s` it took. */
  function DecodeSequence(s: string): (r: Option<(char, nat)>)
    ensures r.Some? ==> 3 <= r.value.1 <= |s|
  {
    match ReadEscape(s)
    case None => None
    case Some(lead) =>
      var n := SequenceLength(lead);
      if n == 0 then None
      else match ReadEscapes(s, n)
        case None => None
        case Some(bs) =>
          if exists i :: 1 <= i < n && !IsContinuation(bs[i]) then None
          else
            var cp := Utf8Value(bs);
            if IsScalar(cp) && cp >= MinCodePoint(n) then Some((cp as char, 3 * n)) else None
  }

  /** `decodeURIComponent(s)`; None where JavaScript throws a URIError. */
  function PercentDecode(s: string): (r: Option<string>)
    decreases |s|
  {
    if s == [] then Some([])
    else if s[0] != '%' then
      match PercentDecode(s[1..])
      case None => None
      case Some(t) => Some([s[0]] + t)
    else
      match DecodeSequence(s)
      case None => None
      case Some((c, k)) =>
        match PercentDecode(s[k..])
        case None => None
        case Some(t) => Some([c] + t)
  }

  lemma EscapeRead(b: int, rest: string)
    requires IsByte(b)
    ensures ReadEscape(Escape(b) + rest) == Some(b)
  {
    var e := Escape(b) + rest;
    assert HexValue(e[1]) == Some(b / 16);
    assert HexValue(e[2]) == Some(b % 16);
  }

  lemma {:induction false} EscapesRead(bs: seq<int>, rest: string)
    requires AllBytes(bs)
    ensures ReadEscapes(Escapes(bs) + rest, |bs|) == Some(bs)
    decreases |bs|
  {
    if bs != [] {
      var tail := Escapes(bs[1..]) + rest;
      var s := Escapes(bs) + rest;
      Regroup(Escape(bs[0]), Escapes(bs[1..]), rest);
      EscapeRead(bs[0], tail);
      EscapesRead(bs[1..], rest);
      ReadEscapesStep(s, |bs|, bs[0], bs[1..]);
      HeadTail(bs);
    }
  }

  lemma HeadTail<T>(xs: seq<T>)
    requires xs != []
    ensures [xs[0]] + xs[1..] == xs
  {
  }

  lemma DropPrefix<T>(xs: seq<T>, ys: seq<T>)
    ensures (xs + ys)[|xs|..] == ys
  {
  }

  lemma Regroup(a: string, b: string, c: string)
    ensures (a + b) + c == a + (b + c)
    ensures ((a + b) + c)[|a|..] == b + c
  {
  }

  lemma ReadEscapesStep(s: string, n: nat, b: int, bs: seq<int>)
    requires n > 0 && ReadEscape(s) == Some(b) && ReadEscapes(s[3..], n - 1) == Some(bs)
    ensures ReadEscapes(s, n) == Some([b] + bs)
  {
  }

  /** The escapes of a byte sequence give back its lead byte and, read as
      many times as the lead byte announces, all of its bytes. */
  lemma EscapesReadBack(bs: seq<int>, rest: string)
    requires AllBytes(bs) && 1 <= |bs| <= 4
    requires SequenceLength(bs[0]) == |bs|
    ensures ReadEscape(Escapes(bs) + rest) == Some(bs[0])
    ensures ReadEscapes(Escapes(bs) + rest, SequenceLength(bs[0])) == Some(bs)
  {
    EscapesRead(bs, rest);
    Regroup(Escape(bs[0]), Escapes(bs[1..]), rest);
    EscapeRead(bs[0], Escapes(bs[1..]) + rest);
  }

  /** The escapes of a well-formed, shortest-form byte sequence decode to
      the character it carries. */
  lemma DecodeWellFormed(bs: seq<int>, rest: string)
    requires AllBytes(bs) && 1 <= |bs| <= 4
    requires SequenceLength(bs[0]) == |bs|
    requires forall i :: 1 <= i < |bs| ==> IsContinuation(bs[i])
    requires IsScalar(Utf8Value(bs)) && Utf8Value(bs) >= MinCodePoint(|bs|)
    requires ReadEscape(Escapes(bs) + rest) == Some(bs[0])
    requires ReadEscapes(Escapes(bs) + rest, SequenceLength(bs[0])) == Some(bs)
    ensures DecodeSequence(Escapes(bs) + rest) == Some((Utf8Value(bs) as char, 3 * |bs|))
  {
  }

  lemma DecodeSequenceOfChar(c: char, rest: string)
    ensures var e := Escapes(Utf8(c as int));
      DecodeSequence(e + rest) == Some((c, |e|))
  {
    Utf8RoundTrip(c as int);
    EscapesReadBack(Utf8(c as int), rest);
    DecodeWellFormed(Utf8(c as int), rest);
  }

  /** `decodeURIComponent(encodeURIComponent(s)) == s`. */
  lemma {:induction false} DecodeEncode(s: string)
    ensures PercentDecode(EncodeURIComponent(s)) == Some(s)
    decreases |s|
  {
    if s != [] {
      var c := s[0];
      var tail := EncodeURIComponent(s[1..]);
      var r := EncodeURIComponent(s);
      DecodeEncode(s[1..]);
      if IsUnreserved(c) {
        assert r == [c] + tail;
        DropPrefix([c], tail);
      } else {
        var e := Escapes(Utf8(c as int));
        assert r == e + tail;
        DecodeSequenceOfChar(c, tail);
        DropPrefix(e, tail);
      }
      HeadTail(s);
    }
  }

  /* JavaScript strings are sequences of UTF-16 code units, and
     `encodeURIComponent` reads them as such: a surrogate pair is one
     character, a surrogate without its partner throws a URIError. */

  predicate IsHighSurrogate(u: int) {
    0xD800 <= u < 0xDC00
  }

  predicate IsLowSurrogate(u: int) {
    0xDC00 <= u < 0xE000
  }

  /** A code unit that stands for a character on its own. */
  predicate IsPlainUnit(u: int) {
    0 <= u < 0x1_0000 && !IsHighSurrogate(u) && !IsLowSurrogate(u)
  }

  /** The code units of one character: itself below U+10000, otherwise a
      high and a low surrogate. */
  function Utf16Char(c: char): (us: seq<int>)
    ensures c as int < 0x1_0000 ==> us == [c as int] && IsPlainUnit(us[0])
    ensures c as int >= 0x1_0000 ==> |us| == 2 && IsHighSurrogate(us[0]) && IsLowSurrogate(us[1])
  {
    var cp := c as int;
    if cp < 0x1_0000 then [cp]
    else [0xD800 + (cp - 0x1_0000) / 0x400, 0xDC00 + (cp - 0x1_0000) % 0x400]
  }

  /** The code units of a string, as JavaScript stores it. */
  function Utf16(s: string): (us: seq<int>)
    ensures |us| >= |s|
    decreases |s|
  {
    if s == [] then [] else Utf16Char(s[0]) + Utf16(s[1..])
  }

  /** The character a surrogate pair stands for. */
  function PairValue(hi: int, lo: int): (cp: int)
    requires IsHighSurrogate(hi) && IsLowSurrogate(lo)
    ensures 0x1_0000 <= cp < 0x11_0000
  {
    0x1_0000 + (hi - 0xD800) * 0x400 + (lo - 0xDC00)
  }

  const MalformedUri := "URI malformed"

  function Prepend(e: string, r: Result<string>): (out: Result<string>)
    ensures r.Success? ==> out == Success(e + r.value)
    ensures r.Failure? ==> out == r
  {
    if r.Success? then Success(e + r.value) else r
  }

  /** `encodeURIComponent` over code units: a pair is encoded as the one
      character it stands for, a lone surrogate makes the call throw. */
  function EncodeUnits(us: seq<int>): (r: Result<string>)
    ensures r.Success? ==> forall i :: 0 <= i < |r.value| ==> IsUnreserved(r.value[i]) || r.value[i] == '%'
    ensures r.Failure? ==> r.error == MalformedUri
    decreases |us|
  {
    if us == [] then Success([])
    else if IsHighSurrogate(us[0]) && |us| >= 2 && IsLowSurrogate(us[1]) then
      Prepend(EncodeChar(PairValue(us[0], us[1]) as char), EncodeUnits(us[2..]))
    else if IsPlainUnit(us[0]) then
      Prepend(EncodeChar(us[0] as char), EncodeUnits(us[1..]))
    else
      Failure(MalformedUri)
  }

  /** The two surrogates of a character stand for that character again. */
  lemma PairOfChar(c: char)
    requires c as int >= 0x1_0000
    ensures var us := Utf16Char(c); PairValue(us[0], us[1]) == c as int
  {
    var x := c as int - 0x1_0000;
    assert x == (x / 0x400) * 0x400 + x % 0x400;
  }

  lemma {:induction false} Utf16Append(a: string, b: string)
    ensures Utf16(a + b) == Utf16(a) + Utf16(b)
    decreases |a|
  {
    if a != [] {
      assert (a + b)[0] == a[0];
      assert (a + b)[1..] == a[1..] + b;
      Utf16Append(a[1..], b);
    } else {
      assert a + b == b;
    }
  }

  /** Below U+10000 every character is one code unit, its own value. */
  lemma {:induction false} Utf16Plain(s: string)
    requires forall i :: 0 <= i < |s| ==> s[i] as int < 0x1_0000
    ensures |Utf16(s)| == |s|
    ensures forall i :: 0 <= i < |s| ==> Utf16(s)[i] == s[i] as int && IsPlainUnit(Utf16(s)[i])
    decreases |s|
  {
    if s != [] {
      Utf16Plain(s[1..]);
      assert Utf16(s) == [s[0] as int] + Utf16(s[1..]);
    }
  }

  /** On the code units of a whole string the unit encoder never throws and
      agrees with the character encoder. */
  lemma {:induction false} EncodeUnitsOfString(s: string)
    ensures EncodeUnits(Utf16(s)) == Success(EncodeURIComponent(s))
    decreases |s|
  {
    if s != [] {
      var c := s[0];
      var us := Utf16(s);
      EncodeUnitsOfString(s[1..]);
      if c as int < 0x1_0000 {
        assert us == [c as int] + Utf16(s[1..]);
        assert us[1..] == Utf16(s[1..]);
        assert (c as int) as char == c;
      } else {
        assert us == Utf16Char(c) + Utf16(s[1..]);
        assert us[2..] == Utf16(s[1..]);
        PairOfChar(c);
        assert PairValue(us[0], us[1]) as char == c;
      }
    }
  }

  /** Plain units followed by a high surrogate with nothing after it: the
      encoding throws. */
  lemma {:induction false} LoneHighSurrogate(xs: seq<int>, h: int)
    requires forall i :: 0 <= i < |xs| ==> IsPlainUnit(xs[i])
    requires IsHighSurrogate(h)
    ensures EncodeUnits(xs + [h]) == Failure(MalformedUri)
    decreases |xs|
  {
    if xs != [] {
      assert (xs + [h])[0] == xs[0];
      assert (xs + [h])[1..] == xs[1..] + [h];
      LoneHighSurrogate(xs[1..], h);
    } else {
      assert xs + [h] == [h];
    }
  }
}

=== FILE: user_model.dfy ===
/** The User record (models/User.js): a connected LinkedIn account with its
    credentials, profile, posting schedule and subscription. */
module UserModel {
  import opened Wrappers
  import opened Document

  datatype Schedule = Schedule(time: string, timezone: string, enabled: bool)

  datatype Profile = Profile(name: Option<string>, email: Option<string>, picture: Option<string>)

  /** The `subscription.plan` enum. */
  datatype Plan = Free | Pro | Enterprise

  /** `postsPerDay` is stored; nothing in the system enforces it. */
  datatype Subscription = Subscription(plan: Plan, postsPerDay: int)

  datatype User = User(
    linkedinId: string,
    accessToken: string,
    refreshToken: Option<string>,
    tokenExpiry: Option<Millis>,
    profile: Profile,
    schedule: Schedule,
    subscription: Subscription,
    createdAt: Millis)

  const DefaultSchedule := Schedule("09:00", "UTC", true)

  const DefaultSubscription := Subscription(Free, 1)

  /** A new account document with the schema's defaults for the fields not
      given: schedule 09:00 UTC enabled, the free plan with one post a day,
      and `createdAt` the creation time. */
  function NewUser(linkedinId: string, accessToken: string, refreshToken: Option<string>,
                   tokenExpiry: Option<Millis>, profile: Profile, now: Millis): (u: User)
    ensures u.schedule.time == "09:00" && u.schedule.timezone == "UTC" && u.schedule.enabled
    ensures u.subscription.plan == Free && u.subscription.postsPerDay == 1
    ensures u.linkedinId == linkedinId && u.accessToken == accessToken && u.createdAt == now
  {
    User(linkedinId, accessToken, refreshToken, tokenExpiry, profile, DefaultSchedule, DefaultSubscription, now)
  }

  /** The unique index on `linkedinId`. */
  ghost predicate UniqueLinkedinIds(users: seq<User>) {
    forall i, j :: 0 <= i < j < |users| ==> users[i].linkedinId != users[j].linkedinId
  }
}

=== FILE: wrappers.dfy ===
/** Optional values and success-or-error outcomes, used for the JavaScript
    `undefined`/`null` cases and for calls that may throw. */
module Wrappers {

  datatype Option<+T> = None | Some(value: T)

  /** The outcome of a step that either yields a value or throws an error
      carrying a message. */
  datatype Result<+T> = Success(value: T) | Failure(error: string)
}
